=== FILE: README.md ===
# image-to-webp, modelled in Dafny

The application has two tools.

- **WebP converter.** It takes dropped images and ZIP archives. The images
  (and an archive's image entries, spliced in at the archive's position) are
  sent one at a time to the endpoint `POST /api/convert`. The results are
  collected into a list that shows size totals, a savings percentage and
  downloads.
- **Background remover.** It runs a segmentation model in the browser on each
  dropped image. Before the PNG is re-encoded, the cut-out's alpha channel
  goes through an edge clean-up pass. The results are listed with totals and
  downloads, and a touch-up editor can replace a cut-out.

This project models the logic of both tools as pure Dafny functions and a few
methods with loops:

| module | what it models |
|---|---|
| `FileNames` | the derived-name rule `name.replace(/\.[^/.]+$/, …)`, with a reference regex semantics (`MatchesAt`) and the scanner that implements it |
| `ConvertRoute` | the endpoint's three checks, its response, and the 500 path for anything thrown inside its `try` |
| `ImageDropzone` | archive/image/skip classification, the ZIP entry filter, flattening, and the drop handler |
| `BackgroundRemovalDropzone` | the `image/` filter, the quality-mode configuration, and the drop handler |
| `Batch` | the sequential, abort-on-first-failure loop both drop handlers share, with its progress values |
| `AlphaRefinement` | the alpha-refinement pass, as an imperative loop over the RGBA bytes |
| `ResultList`, `ConverterPage`, `RemoveBgPage` | append and clear on the two pages |
| `Totals`, `Export`, `ConversionResult`, `BackgroundRemovalResult` | totals, the savings percentage, single and bulk downloads, and the touch-up save |
| `Arithmetic` | the division facts the percentage and the alpha pass share |

These are parameters of the model, not modelled:

- the WebP encoder (sharp);
- the ZIP reader (JSZip);
- the removal library together with its canvas round-trip;
- `fetch`.

Each is a function into `Option`, where `None` is a failure (a thrown error
or a non-2xx response). Object URLs are modelled by the blobs they point to.

Four behaviours of the code shape the model:

- **A failing item aborts the whole batch.** The first failing request,
  removal or entry decode throws out of the `onDrop` loop. Nothing is
  delivered, and the page's list is left unchanged (`Batch.RunSequentially`,
  `ImageDropzone.OnDrop`, `BackgroundRemovalDropzone.OnDrop`).
- **An unreadable archive aborts the whole drop**, including the other files
  dropped with it (`ImageDropzone.UnreadableArchiveAbortsFlattening`).
- **Progress moves only after a success.** A failure ends the loop before the
  progress bar is updated.
- **Extracted ZIP entries keep their full path as their file name**
  (`ImageDropzone.EntryFile`).

## Model

| member | source | states |
|---|---|---|
| `FileNames.ExtensionDot` | src/components/ImageDropzone.tsx:39 | The backwards scan finds position p exactly when `/\.[^/.]+$/` matches at p: the only candidate is the last dot, it must be followed by at least one character, and no '/' or '.' may follow it. |
| `FileNames.ExtCharsAtEnd` | src/components/ImageDropzone.tsx:39 | The run of `[^/.]` characters at the end of a name is maximal: all of them pass the class, and the character before them does not. |
| `FileNames.ReplaceExtension` | src/components/ImageDropzone.tsx:39 | When the regex matches at p, the result is the name up to p followed by the replacement; when it does not match, the name is returned unchanged. |
| `FileNames.ReplacedNameMatchesAtStem` | src/components/ImageDropzone.tsx:39 | A replacement that is itself an extension ('.' plus `[^/.]` characters) gives a derived name whose only match starts where the replacement starts. |
| `FileNames.ReplaceExtensionIdempotent` | src/components/ImageDropzone.tsx:39 | With such a replacement, deriving a name twice gives the same result as deriving it once. |
| `FileNames.WebpNameIdempotent` | src/app/api/convert/route.ts:49 | The ".webp" name the endpoint puts in Content-Disposition equals the client's name for an already-converted file. |
| `FileNames.DerivedNameShape` | src/components/BackgroundRemovalDropzone.tsx:50 | A name with an extension derives to a name that ends in the replacement, and the part before the replacement is a prefix of the original name. |
| `FileNames.ExampleLastExtension` | src/components/ImageDropzone.tsx:39 | "a.tar.gz" becomes "a.tar.webp": only the last extension is replaced. |
| `FileNames.ExampleDotFile` | src/components/ImageDropzone.tsx:39 | ".bashrc" becomes ".webp": a leading dot still starts a match. |
| `FileNames.ExampleUnchanged` | src/components/ImageDropzone.tsx:39 | "README", "x." and "d.v1/f" are left unchanged. |
| `FileNames.NoBackgroundNameNotIdempotent` | src/components/BackgroundRemovalDropzone.tsx:50 | "_no_bg.png" is not an extension by itself, so deriving twice stacks the suffix: "a.jpg" becomes "a_no_bg_no_bg.png". |
| `Batch.RunSequentially` | src/components/ImageDropzone.tsx:84-94 | Items are requested in order, up to and including the first failure. Outputs exist if and only if every item succeeds, and then they are the per-item results in order. Progress takes the value (k/n)·100 after the k-th success. |
| `Batch.Progress` | src/components/ImageDropzone.tsx:91 | The value r is the percentage of items done: r·total = 100·done. It stays within [0, 100] while done ≤ total; `ProgressRisesToHundred` adds that it rises strictly and reaches 100 only at the end. |
| `Batch.ProgressRisesToHundred` | src/components/ImageDropzone.tsx:91 | Progress is positive, rises strictly with each completed item, and equals 100 exactly after the last one. |
| `ImageDropzone.ImageEntries` | src/components/ImageDropzone.tsx:52-53 | An entry is kept exactly when it is not a directory and has a supported image extension. Matching ignores case. |
| `ImageDropzone.ExtractImages` | src/components/ImageDropzone.tsx:47-61 | An opened archive yields one file per kept entry, in archive order, named by the entry's path. It fails if and only if some kept entry cannot be decoded. |
| `ImageDropzone.Classify` | src/components/ImageDropzone.tsx:72-77 | A file is an archive exactly when it is typed "application/zip" or its name ends in ".zip". Only an image-typed file is taken directly. Every image-typed file whose name does not end in ".zip" is taken directly. |
| `ImageDropzone.EntryFile` | src/components/ImageDropzone.tsx:54-56 | The file built from a decoded entry carries the entry's full path as its name, and the decoded bytes and their type. |
| `ImageDropzone.Contribution` | src/components/ImageDropzone.tsx:72-77 | A direct image contributes itself and a skipped file contributes nothing. An archive that opens contributes exactly its extracted entry files, in archive order. It contributes anything at all if and only if it opens and every kept entry decodes. |
| `ImageDropzone.FilesToProcess` | src/components/ImageDropzone.tsx:68-78 | Flattening succeeds if and only if every dropped file's contribution does. On success every directly dropped image is in the list. `FilesToProcessConcat` and `FilesToProcessSingle` fix the order. |
| `ImageDropzone.ConvertImageToWebP` | src/components/ImageDropzone.tsx:20-44 | The result keeps the uploaded file and the response body, and both recorded sizes are the sizes of those blobs. When the regex matches at p, the name becomes everything before p followed by ".webp". A name without an extension is kept. Either way the name is stable under a second derivation. |
| `ImageDropzone.ImageEntriesConcat` | src/components/ImageDropzone.tsx:52-58 | The entry filter distributes over a split of the archive, so archive order is preserved. |
| `ImageDropzone.FilesToProcessConcat` | src/components/ImageDropzone.tsx:71-78 | Flattening distributes over a split of the drop: each file's contribution is spliced in at that file's position, and one failure fails the whole flattening. |
| `ImageDropzone.FilesToProcessSingle` | src/components/ImageDropzone.tsx:71-78 | A single dropped file flattens to that file's own contribution. |
| `ImageDropzone.ZipNameBeatsImageType` | src/components/ImageDropzone.tsx:72-77 | The archive test comes first: an image-typed "photos.zip" is treated as an archive. "photos.ZIP" is not, because `endsWith` is case-sensitive. A text file is skipped. |
| `ImageDropzone.EntryFilterExamples` | src/components/ImageDropzone.tsx:53 | "album/IMG_01.JPG" is kept. A directory named "album.png/" is not kept, and neither is "notes.txt". |
| `ImageDropzone.UnreadableArchiveAbortsFlattening` | src/components/ImageDropzone.tsx:71-74 | One unreadable archive anywhere in a drop makes the flattening fail. |
| `ImageDropzone.OnDrop` | src/components/ImageDropzone.tsx:63-102 | See below the table. |
| `ImageDropzone.AfterDrop` | src/app/page.tsx:19-21 | A delivered batch is appended after the existing list: the old list is the prefix and the batch is exactly what follows it. An aborted drop leaves the list exactly as it was. |
| `ConvertRoute.GetField` | src/app/api/convert/route.ts:7 | The value returned is that of a field with the given name that no earlier field shares, i.e. the first one. None is returned if and only if no field has that name. |
| `ConvertRoute.Disposition` | src/app/api/convert/route.ts:49 | The header value is `attachment; filename="…"` with the derived ".webp" name between the quotes. It is a valid header value if and only if that name is one. |
| `ConvertRoute.UploadRequest` | src/components/ImageDropzone.tsx:21-27 | The drop zone's form has an "image" field holding the file's bytes under its escaped name (see `MultipartName`). An untyped file travels as "application/octet-stream", and a typed one keeps its type. |
| `ConvertRoute.MultipartName` | src/components/ImageDropzone.tsx:21-27 | The name that arrives never holds '"', CR or LF, and it is never shorter than the original. It equals the original if and only if the original holds none of the three. |
| `ConvertRoute.MultipartNameIdempotent` | src/components/ImageDropzone.tsx:21-27 | Escaping an escaped name changes nothing. |
| `ConvertRoute.Post` | src/app/api/convert/route.ts:4-60 | See below the table. |
| `ConvertRoute.ServerConvert` | src/app/api/convert/route.ts:9-51 | A file comes back from the endpoint if and only if it passes both checks, the encoder succeeds and the derived form of its escaped name fits in the header; what comes back is the encoder's bytes typed "image/webp". |
| `ConvertRoute.CheckOrder` | src/app/api/convert/route.ts:9-31 | The first "image" field decides, whatever other fields the form holds. If it is absent or an empty string, "No image file provided" is returned. An oversize file is reported as too large even when its type is also wrong; otherwise a non-image type is reported. |
| `ConvertRoute.SizeBoundary` | src/app/api/convert/route.ts:17-18 | Exactly 50 MiB (52428800 bytes) is accepted; one byte more is refused. |
| `ConvertRoute.EncoderOnlyAfterChecks` | src/app/api/convert/route.ts:9-43 | The response to a request the checks refuse does not depend on the encoder. |
| `ConvertRoute.ServerRefusesUnacceptable` | src/app/api/convert/route.ts:18-31 | An oversize or non-image file, including one sent without a type (it travels as application/octet-stream), fails when the drop zone sends it. |
| `ConvertRoute.NonLatin1NameFails` | src/app/api/convert/route.ts:46-58 | A character above U+00FF before the last dot survives into the Content-Disposition header. Building the response then throws, and the request ends in the 500 path. |
| `ConvertRoute.LineFeedEscape` | src/components/ImageDropzone.tsx:21-27 | The name `"a\nb.png"`, which holds a line feed, is sent as `"a%0Ab.png"`. |
| `ConvertRoute.RawLineFeedBreaksHeader` | src/app/api/convert/route.ts:46-51 | Unescaped, the line feed would put a line break inside the Content-Disposition value. |
| `ConvertRoute.EscapedNameFitsHeader` | src/app/api/convert/route.ts:46-51 | The escaped name yields the valid header value `attachment; filename="a%0Ab.webp"`. |
| `ConvertRoute.LineFeedNameIsEscaped` | src/app/api/convert/route.ts:9-51 | An acceptable image named `"a\nb.png"` is converted, even though its raw name could not be carried in the header. |
| `AlphaRefinement.Uint8Clamp` | src/components/BackgroundRemovalDropzone.tsx:83 | A store into the clamped byte array clamps the value to [0, 255] and rounds to the nearest integer, with ties going to the even neighbour. |
| `AlphaRefinement.RefineAlpha` | src/components/BackgroundRemovalDropzone.tsx:77-89 | An alpha is cleared if and only if it is below 10, and it becomes 255 if and only if it is at least 213. Above the threshold it never decreases. `RefineAlphaClosedForm` gives the exact value. |
| `AlphaRefinement.RefineAlphaClosedForm` | src/components/BackgroundRemovalDropzone.tsx:77-89 | After the pass, an alpha below 10 is 0 and 255 stays 255. Any other alpha becomes min(255, (6α+2) div 5): α·1.2 is never a tie, so the even-rounding rule never applies. |
| `AlphaRefinement.RefineAlphaFixedPoints` | src/components/BackgroundRemovalDropzone.tsx:80-89 | Alpha 0 and alpha 255 are unchanged, and every alpha below 10 is cleared. |
| `AlphaRefinement.RefineAlphaSaturates` | src/components/BackgroundRemovalDropzone.tsx:82-83 | Every alpha from 213 up becomes 255. 212 becomes 254, the largest partial result. |
| `AlphaRefinement.RefineAlphaMonotone` | src/components/BackgroundRemovalDropzone.tsx:80-84 | From the threshold up, the pass preserves order and never lowers an alpha. |
| `AlphaRefinement.RefineAlphaChannel` | src/components/BackgroundRemovalDropzone.tsx:76-90 | The loop keeps the buffer's length. It changes only the bytes at offsets 3, 7, 11, … and sets each of them to its refined alpha. Colour bytes and a trailing partial pixel are left as they were. |
| `BackgroundRemovalDropzone.ConfigFor` | src/components/BackgroundRemovalDropzone.tsx:27-39 | Quality mode uses "isnet" at quality 0.9, and fast mode uses "isnet_fp16" at quality 0.8. Both output "image/png". |
| `BackgroundRemovalDropzone.QualityModeIsFiner` | src/components/BackgroundRemovalDropzone.tsx:30-36 | Quality mode asks for a higher output quality than fast mode, in the same format. |
| `BackgroundRemovalDropzone.InitialConfig` | src/components/BackgroundRemovalDropzone.tsx:20 | A freshly opened page is in quality mode, so it runs "isnet" at quality 0.9. |
| `BackgroundRemovalDropzone.ImageFiles` | src/components/BackgroundRemovalDropzone.tsx:110 | A dropped file is kept exactly when its type starts with "image/". |
| `BackgroundRemovalDropzone.ImageFilesConcat` | src/components/BackgroundRemovalDropzone.tsx:110 | The filter distributes over a split of the drop, so drop order and repeated files are kept. |
| `BackgroundRemovalDropzone.RemoveImageBackground` | src/components/BackgroundRemovalDropzone.tsx:22-56 | The result keeps the uploaded file and the cut-out, and both recorded sizes are the sizes of those blobs. When the regex matches at p, the name becomes everything before p followed by "_no_bg.png". A name without an extension is kept. |
| `BackgroundRemovalDropzone.OnDrop` | src/components/BackgroundRemovalDropzone.tsx:105-134 | See below the table. |
| `BackgroundRemovalDropzone.AfterDrop` | src/app/remove-bg/page.tsx:20-22 | A delivered batch is appended after the existing list: the old list is the prefix and the batch is exactly what follows it. An aborted drop leaves the list unchanged. |
| `BackgroundRemovalDropzone.SameFilesWithoutArchives` | src/components/BackgroundRemovalDropzone.tsx:110 | On a drop with no archive, the converter's flattening gives exactly this drop zone's filter. |
| `BackgroundRemovalDropzone.ZipNamedImageDiffers` | src/components/ImageDropzone.tsx:72-76 | An image-typed "photos.zip" is an image to the remover and an archive to the converter. |
| `ResultList.Append` | src/app/page.tsx:19-21 | `[...prev, ...batch]` keeps every earlier item at its position and puts the batch after them. |
| `ResultList.Clear` | src/app/page.tsx:23-25 | Clear All leaves an empty list. |
| `ResultList.AppendEmpty` | src/app/page.tsx:19-21 | Appending an empty batch leaves the list unchanged. |
| `ResultList.ShowsResults` | src/app/page.tsx:73 | The results section is rendered if and only if the list is non-empty. `ShowsResultsAfter` adds that it appears after any non-empty delivery and disappears after Clear All. |
| `ResultList.ClearThenAppend` | src/app/page.tsx:23-25 | After Clear All, the next delivery leaves exactly that batch, and the results show if and only if the batch is non-empty. |
| `ResultList.AppendTwice` | src/app/page.tsx:19-21 | Two deliveries in a row give the same list as one delivery of both batches in order. |
| `ResultList.ShowsResultsAfter` | src/app/page.tsx:73 | The results section is shown after any non-empty delivery and hidden after Clear All. |
| `ConverterPage.HandleImagesConverted` | src/app/page.tsx:19-21 | The previous list is a prefix of the new one and the batch is its suffix. An empty batch changes nothing. |
| `ConverterPage.HandleClearAll` | src/app/page.tsx:23-25 | The list becomes empty, so the next delivery leaves exactly its batch. |
| `RemoveBgPage.HandleImagesProcessed` | src/app/remove-bg/page.tsx:20-22 | The previous list is a prefix of the new one and the batch is its suffix. |
| `RemoveBgPage.HandleClearAll` | src/app/remove-bg/page.tsx:24-26 | The list becomes empty, so the next delivery leaves exactly its batch. |
| `Totals.SumSizesConcat` | src/components/ConversionResult.tsx:65-66 | The `reduce` total of a concatenation is the sum of the two totals. |
| `Totals.SumSizesPointwise` | src/components/BackgroundRemovalResult.tsx:63-64 | Lists whose sizes agree position by position have the same total. |
| `Totals.SumSizesBoundsItems` | src/components/BackgroundRemovalResult.tsx:63-64 | No single item's size exceeds the total. |
| `Totals.SumSizes` | src/components/ConversionResult.tsx:65-66 | The `reduce` total is zero if and only if every item has size zero. `SumSizesSingle` and `SumSizesConcat` pin down every other total. |
| `Export.Contents` | src/components/ConversionResult.tsx:43-47 | The archive's file names are exactly the names written to it. |
| `Export.LastWriteWins` | src/components/ConversionResult.tsx:43-47 | The file stored under a name holds the data of the last write with that name. |
| `Export.DuplicateNameOverwrites` | src/components/ConversionResult.tsx:46 | Two images with the same name leave one file in the archive, holding the later image's data. |
| `ConversionResult.JsRound` | src/components/ConversionResult.tsx:23 | `Math.round` gives the integer within half a unit of x, where x − 0.5 is included and x + 0.5 is not. |
| `ConversionResult.CalculateSavings` | src/components/ConversionResult.tsx:22-24 | See below the table. |
| `ConversionResult.SavingsIntegerForm` | src/components/ConversionResult.tsx:22-24 | For a non-zero original, the percentage is floor((200(o−w)+o) / 2o). |
| `ConversionResult.SavingsLandmarks` | src/components/ConversionResult.tsx:22-24 | An unchanged size shows 0% and an empty WebP shows 100%. A larger WebP never shows a positive saving. |
| `ConversionResult.SavingsNegativeIff` | src/components/ConversionResult.tsx:22-24 | A larger WebP shows a negative percentage if and only if it is more than half a percent larger; otherwise it shows 0. |
| `ConversionResult.Summarize` | src/components/ConversionResult.tsx:65-67 | The count is the list's length. The totals are the sums of the original and WebP sizes, the percentage is `calculateSavings` of the two totals, and bytes saved is their difference. An empty list has zero totals and NaN savings. |
| `ConversionResult.SummaryOfOne` | src/components/ConversionResult.tsx:65-67 | For a single image the summary shows that image's own sizes and its own percentage. |
| `Totals.SumSizesSingle` | src/components/ConversionResult.tsx:65 | A one-item list totals that item's size; with the concatenation rule this pins every total down. |
| `ConversionResult.SummaryAfterAppend` | src/components/ConversionResult.tsx:65-67 | A delivered batch adds its own totals and bytes saved to the shown ones. Clearing zeroes the totals. |
| `ConversionResult.SavingsFromTotalsNotAverage` | src/components/ConversionResult.tsx:67 | The overall percentage comes from the totals, not from averaging per-image percentages: 50% and 0% give 5% overall. |
| `ConversionResult.DownloadAll` | src/components/ConversionResult.tsx:35-63 | There is no archive if and only if the list is empty. Otherwise "converted-images.zip" has one write per image, in order, under the image's name. |
| `ConversionResult.DownloadSingle` | src/components/ConversionResult.tsx:26-33 | The anchor saves the image's WebP blob under the image's name. This is exactly the content of the archive for a list holding only that image. |
| `ConversionResult.BulkAgreesWithSingle` | src/components/ConversionResult.tsx:26-47 | For an image whose name no later image reuses, the archive holds exactly what its single download saves. |
| `BackgroundRemovalResult.Summarize` | src/components/BackgroundRemovalResult.tsx:63-64 | The count is the list's length. The totals are the sums of the original and processed sizes, so each bounds each image's size, and an empty list has zero totals. |
| `BackgroundRemovalResult.DownloadAll` | src/components/BackgroundRemovalResult.tsx:33-61 | There is no archive if and only if the list is empty. Otherwise "background-removed-images.zip" has one write per image, in order, under the image's name. |
| `BackgroundRemovalResult.DownloadSingle` | src/components/BackgroundRemovalResult.tsx:24-31 | The anchor saves the current cut-out under the image's name. This is exactly the content of the archive for a list holding only that image. |
| `BackgroundRemovalResult.SaveTouchup` | src/components/BackgroundRemovalResult.tsx:195-199 | See below the table. |
| `BackgroundRemovalResult.TouchupKeepsTotals` | src/components/BackgroundRemovalResult.tsx:195-199 | A touch-up leaves both totals unchanged. |
| `BackgroundRemovalResult.TouchupReachesDownloads` | src/components/BackgroundRemovalResult.tsx:24-44 | After a touch-up, both the single download and the archive entry for that image carry the edited cut-out. |
| `BackgroundRemovalResult.TouchupSizeIsStale` | src/components/BackgroundRemovalResult.tsx:195-199 | The processed size shown for a touched-up image stays the size from before the edit. |
| `BackgroundRemovalResult.BulkAgreesWithSingle` | src/components/BackgroundRemovalResult.tsx:24-44 | For an image whose name no later image reuses, the archive holds exactly what its single download saves. |
| `BackgroundRemovalResult.SummaryAfterAppend` | src/components/BackgroundRemovalResult.tsx:63-64 | A delivered batch adds its own totals. Clearing gives an empty summary. |

The longer contracts referred to in the table:

- `ImageDropzone.OnDrop`:
  - A drop whose flattening fails or yields nothing makes no request.
  - Otherwise at least the first file is requested, and the files are requested in order, up to and including the first failure.
  - The page receives one converted image per file, in order, with the derived name and both sizes, if and only if every request succeeds; in that case every file was requested.
  - The busy flag and the progress bar are reset in every outcome.
- `ConvertRoute.Post`:
  - The status is 400 exactly when the field is missing, is the empty string, or is a file that fails a check; a 400 is one of the three errors "No image file provided", "File size too large. Maximum size is 50MB." and "File must be an image".
  - A WebP response is returned exactly when the file passes both checks, the encoder succeeds, and the header value is valid.
  - Such a response carries the encoded bytes, the type "image/webp", and the derived name.
  - Every other response, including the one to an unreadable form, is the 500 error "Failed to convert image".
- `BackgroundRemovalDropzone.OnDrop`:
  - With no image-typed file, nothing is processed.
  - Otherwise at least the first image is processed, and the images are processed in order with the mode's configuration, up to and including the first failure.
  - The page receives one result per image, in order, if and only if every image succeeds; in that case every image was processed.
  - The busy flag and the progress bar are reset in every outcome.
- `ConversionResult.CalculateSavings`:
  - For a non-zero original, the result is within half a unit of (o−w)/o·100.
  - For a zero original, the result is NaN when the WebP size is also zero and −Infinity otherwise.
- `BackgroundRemovalResult.SaveTouchup`:
  - Only the edited image's cut-out changes.
  - Its name, original and both recorded sizes stay the same, and every other image is untouched.

## Left out

- **Network, files, timers and UI.** `fetch`, object URLs, anchors and clicks, alerts and console logging are not modelled. Neither are React rendering and the `isDragActive` styling. Requests are modelled by their outcomes.
- **The WebP encoder (sharp) and its options** (quality 80, effort 6). The encoder is a parameter of `ConvertRoute.Post`.
- **The ZIP reader and writer (JSZip).**
  - An archive is modelled as the reader's entry list, in the order `Object.entries` yields it.
  - The directory entries JSZip makes up for paths, and the byte format of the generated archive, are not modelled.
  - An entry's media type is whatever the reader reports. An entry not typed `image/...` is refused by the endpoint, which aborts the batch (`ConvertRoute.ServerRefusesUnacceptable`).
- **The background-removal library and the canvas round-trip.**
  - Model download, inference, image decoding and PNG encoding are a parameter of `BackgroundRemovalDropzone.OnDrop`.
  - Only the alpha loop is modelled (`AlphaRefinement`).
  - A canvas whose blob comes back null, and an image that never loads, are not modelled: the source would hang or fail later.
- **Floating point.**
  - Progress, the savings percentage and α·1.2 are computed over exact reals.
  - In the alpha pass this changes nothing: α·1.2 has a fractional part that is a multiple of 0.2, so it is never near a rounding tie, and `AlphaRefinement.RefineAlpha` treats the literal 1.2 as exact.
  - For the savings percentage, an exact value that is a tie may be computed in double precision just below it, so the displayed value can be one lower than `ConversionResult.CalculateSavings` states. For an original of 40 bytes and a WebP of 17, the exact 57.5 rounds to 58, while doubles give 57.49999999999999, which rounds to 57.
  - A negative percentage that rounds to −0 is modelled as 0, which is also how it displays.
- **`formatFileSize`** is display formatting of the sizes whose totals the model states.
- **`ImageTouchup`** (the brush editor) is modelled only through the blob its `onSave` hands back.
- **The health endpoint** reports a status and a timestamp, with a 500 branch of its own; it has no logic the converter or the remover uses, and is not part of this model.
- **The multipart encoding beyond the file name's escape.** The browser writes '"', CR and LF in a file name as "%22", "%0D" and "%0A", as the HTML Standard's multipart/form-data encoding algorithm requires; `ConvertRoute.MultipartName` models this. The byte-level encoding of other characters is not modelled: names stay sequences of characters from drop to response.
- **The drop zones' `accept` pre-filter** is left out. It is applied by the drop library before `onDrop` sees the files, and the model's `OnDrop` takes what reaches `onDrop`.
- **The stale quality mode.** `onDrop`'s `useCallback` does not list `qualityMode` as a dependency, so a mode switched after the first render may not reach the handler. The model passes the mode the handler actually reads as a parameter.
- **Concurrency.** A second drop while one is running is prevented by the `disabled` flag and is not modelled. Nothing bounds how long a request or inference may take.
- **Bulk download failures.** A failing blob fetch during a bulk download is not modelled. The source alerts and leaves the list unchanged.
- `BackgroundRemovalResult.SaveTouchup`: the source mutates the record in place, and the list itself is not re-set. The model returns the updated list, which is what the next render and both downloads read.

=== FILE: alpha_refinement.dfy ===
/**
  The edge clean-up pass the background remover runs over the cut-out's RGBA
  pixels (`postProcessImage`): every fourth byte is an alpha value; a
  partially transparent alpha is scaled by 1.2 (capped at 255), and any alpha
  that started below 10 is cleared. The colour bytes are never written.

  The store into the `Uint8ClampedArray` rounds to the nearest integer, ties
  to even. The product `alpha * 1.2` is taken over exact reals here.
 */
module AlphaRefinement {

  import opened Common
  import opened Arithmetic

  /** Alphas below this are treated as noise. */
  const NoiseThreshold: int := 10

  function RealMin(x: real, y: real): real { if x <= y then x else y }

  function Min(x: int, y: int): int { if x <= y then x else y }

  /** ECMAScript's ToUint8Clamp: clamp to [0, 255], then round half to even. */
  function Uint8Clamp(x: real): (r: byte)
    ensures x <= 0.0 ==> r == 0
    ensures x >= 255.0 ==> r == 255
    ensures 0.0 < x < 255.0 ==> (r as real - 0.5 <= x <= r as real + 0.5)
    ensures 0.0 < x < 255.0 && x - x.Floor as real == 0.5 ==> r % 2 == 0
  {
    if x <= 0.0 then 0
    else if x >= 255.0 then 255
    else
      var f := x.Floor;
      if f as real + 0.5 < x then (f + 1) as byte
      else if x < f as real + 0.5 then f as byte
      else if f % 2 == 0 then f as byte
      else (f + 1) as byte
  }

  /** One pixel's alpha after the loop body: the smoothing `if`, then the noise `if`, both testing the original alpha. */
  function RefineAlpha(alpha: byte): (r: byte)
    ensures r == 0 <==> (alpha as int) < NoiseThreshold
    ensures r == 255 <==> 213 <= alpha as int
    ensures NoiseThreshold <= alpha as int ==> alpha <= r
  {
    var smoothed := if 0 < alpha < 255 then Uint8Clamp(RealMin(255.0, alpha as real * 1.2)) else alpha;
    if (alpha as int) < NoiseThreshold then 0 else smoothed
  }

  /**
    The pass in integer arithmetic: an alpha from 10 to 254 becomes
    min(255, (6 * alpha + 2) div 5). 1.2 * alpha is a multiple of 0.2, so it
    never lies halfway between two integers and the rounding rule for ties
    never applies.
   */
  lemma RefineAlphaClosedForm(alpha: byte)
    ensures RefineAlpha(alpha) as int ==
      if (alpha as int) < NoiseThreshold then 0
      else if alpha == 255 then 255
      else Min(255, (6 * alpha as int + 2) / 5)
  {
    var a := alpha as int;
    if NoiseThreshold <= a < 255 {
      var x := a as real * 1.2;
      var q := 6 * a / 5;
      var r := 6 * a % 5;
      assert x == (6 * a) as real / 5 as real;
      assert x == q as real + r as real / 5.0;
      if x < 255.0 {
        FloorOfQuotient(6 * a, 5);
        assert x.Floor == q;
        assert RealMin(255.0, x) == x;
        if r >= 3 {
          assert q as real + 0.5 < x;
          assert (6 * a + 2) / 5 == q + 1;
        } else {
          assert x < q as real + 0.5;
          assert (6 * a + 2) / 5 == q;
        }
      } else {
        assert (6 * a + 2) / 5 >= 255;
      }
    }
  }

  /** Fully transparent and fully opaque pixels keep their alpha; every alpha below 10 ends at 0. */
  lemma RefineAlphaFixedPoints(alpha: byte)
    ensures RefineAlpha(0) == 0 && RefineAlpha(255) == 255
    ensures (alpha as int) < NoiseThreshold ==> RefineAlpha(alpha) == 0
  {
  }

  /** Every alpha from 213 up becomes fully opaque; 212 is the largest that stays partial. */
  lemma RefineAlphaSaturates(alpha: byte)
    ensures 213 <= alpha ==> RefineAlpha(alpha) == 255
    ensures RefineAlpha(212) == 254
  {
    RefineAlphaClosedForm(alpha);
    RefineAlphaClosedForm(212);
  }

  /** From the threshold up the pass is monotone and never lowers an alpha. */
  lemma RefineAlphaMonotone(a: byte, b: byte)
    requires NoiseThreshold <= a as int <= b as int
    ensures RefineAlpha(a) <= RefineAlpha(b)
    ensures a <= RefineAlpha(a)
  {
    RefineAlphaClosedForm(a);
    RefineAlphaClosedForm(b);
  }

  /** Within one 4-byte pixel starting at `i`, only offset 3 is an alpha byte. */
  lemma StrideOffsets(i: nat)
    requires i % 4 == 0
    ensures forall v: byte :: RefinedByte(i + 3, v) == RefineAlpha(v)
    ensures forall j: nat, v: byte | i <= j < i + 3 :: RefinedByte(j, v) == v
  {
    forall j: nat, v: byte | i <= j < i + 3
      ensures RefinedByte(j, v) == v
    {
      assert j % 4 == j - i;
    }
  }

  /** The byte at index `j` after the pass, given the byte before it. */
  function RefinedByte(j: nat, before: byte): byte {
    if j % 4 == 3 then RefineAlpha(before) else before
  }

  /**
    The loop of `postProcessImage` over `imageData.data`. The length is kept;
    only the bytes at offsets 3, 7, 11, ... (the alpha channel) change; a
    trailing partial pixel has no alpha byte to read, so nothing of it changes.
   */
  method RefineAlphaChannel(pixels: seq<byte>) returns (refined: seq<byte>)
    ensures |refined| == |pixels|
    ensures forall j | 0 <= j < |pixels| :: j % 4 != 3 ==> refined[j] == pixels[j]
    ensures forall j | 0 <= j < |pixels| :: j % 4 == 3 ==> refined[j] == RefineAlpha(pixels[j])
  {
    var data := new byte[|pixels|](j requires 0 <= j < |pixels| => pixels[j]);
    var i := 0;
    while i < data.Length
      invariant 0 <= i <= data.Length + 3
      invariant i % 4 == 0
      invariant forall j | 0 <= j < data.Length :: data[j] == if j < i then RefinedByte(j, pixels[j]) else pixels[j]
    {
      ghost var before := data[..];
      if i + 3 < data.Length {
        var alpha := data[i + 3];
        if 0 < alpha < 255 {
          data[i + 3] := Uint8Clamp(RealMin(255.0, alpha as real * 1.2));
        }
        if (alpha as int) < NoiseThreshold {
          data[i + 3] := 0;
        }
        assert data[i + 3] == RefinedByte(i + 3, pixels[i + 3]);
      }
      assert forall j | 0 <= j < data.Length && j != i + 3 :: data[j] == before[j];
      StrideOffsets(i);
      i := i + 4;
    }
    refined := data[..];
  }
}

=== FILE: arithmetic.dfy ===
/**
  Facts about division the percentage and the alpha pass rely on: the floor
  of an exact quotient is the integer quotient, and the integer quotient is
  pinned down by an interval.
 */
module Arithmetic {

  /** Dividing through by a positive real keeps an order. */
  lemma DivideOrder(a: real, b: real, c: real)
    requires c > 0.0
    ensures a * c <= b * c ==> a <= b
    ensures a * c < b * c ==> a < b
  {
  }

  /** A product divided by its positive factor. */
  lemma QuotientOf(a: real, b: real, c: real)
    requires c > 0.0 && a * c == b
    ensures a == b / c
  {
  }

  /** The floor of an exact quotient is the integer quotient. */
  lemma FloorOfQuotient(n: int, m: int)
    requires m > 0
    ensures (n as real / m as real).Floor == n / m
  {
    var z := n as real / m as real;
    var q := n / m;
    assert z * m as real == n as real;
    assert q * m <= n < (q + 1) * m;
    assert (q * m) as real == q as real * m as real;
    assert ((q + 1) * m) as real == (q as real + 1.0) * m as real;
    DivideOrder(q as real, z, m as real);
    DivideOrder(z, q as real + 1.0, m as real);
  }

  /** The quotient is pinned down by the interval the dividend falls in. */
  lemma QuotientIs(n: int, m: int, q: int)
    requires m > 0 && q * m <= n < q * m + m
    ensures n / m == q
  {
    var k := n / m;
    assert n == k * m + n % m && 0 <= n % m < m;
    if k > q {
      MultipleAtLeast(k - q, m);
    } else if k < q {
      MultipleAtLeast(q - k, m);
    }
  }

  /** A positive multiple of a non-negative number is at least that number. */
  lemma {:induction false} MultipleAtLeast(a: int, m: int)
    requires a >= 1 && m >= 0
    ensures a * m >= m
    decreases a
  {
    if a > 1 {
      MultipleAtLeast(a - 1, m);
      assert a * m == (a - 1) * m + m;
    }
  }

  /** With a positive divisor the (floored) quotient is negative exactly when the dividend is. */
  lemma QuotientSign(n: int, m: int)
    requires m > 0
    ensures n / m < 0 <==> n < 0
  {
    var q := n / m;
    assert q * m <= n < q * m + m;
    if q >= 0 {
      assert q * m >= 0;
    }
  }
}

=== FILE: background_removal_dropzone.dfy ===
/**
  The background remover's drop zone: only files typed `image/...` are taken
  (there is no archive handling), the model configuration follows the quality
  mode, and the drop handler processes the files one at a time and delivers
  all results or none.

  The in-browser removal (`removeBackground`, followed by the canvas
  round-trip of `postProcessImage`) is a parameter: it returns the final PNG
  or fails. The alpha pass inside that round-trip is modelled on its own in
  `AlphaRefinement`.
 */
module BackgroundRemovalDropzone {

  import opened Common
  import opened FileNames
  import opened Batch
  import opened RemoveBgPage
  import ImageDropzone

  datatype QualityMode = Fast | Quality

  /** The mode selected when the page opens. */
  const InitialMode: QualityMode := Quality

  datatype RemovalConfig = RemovalConfig(model: string, quality: real, format: string)

  /** The configuration `removeImageBackground` passes to the removal library. */
  function ConfigFor(mode: QualityMode): (c: RemovalConfig)
    ensures c.format == "image/png"
    ensures c.model == "isnet" <==> mode == Quality
    ensures c.model == "isnet_fp16" <==> mode == Fast
    ensures c.quality == if mode == Quality then 0.9 else 0.8
  {
    match mode
    case Quality => RemovalConfig("isnet", 0.9, "image/png")
    case Fast => RemovalConfig("isnet_fp16", 0.8, "image/png")
  }

  /** Quality mode asks for the higher output quality; both modes produce PNG. */
  lemma QualityModeIsFiner()
    ensures ConfigFor(Quality).quality > ConfigFor(Fast).quality
    ensures ConfigFor(Quality).format == ConfigFor(Fast).format
  {
  }

  /** A page that has just opened runs the full-precision model at quality 0.9. */
  lemma InitialConfig()
    ensures ConfigFor(InitialMode).model == "isnet" && ConfigFor(InitialMode).quality == 0.9
  {
  }

  /** `acceptedFiles.filter(file => file.type.startsWith('image/'))` */
  function ImageFiles(drop: seq<InputFile>): (r: seq<InputFile>)
    ensures |r| <= |drop|
    ensures forall f :: f in r <==> f in drop && StartsWith(f.MediaType(), "image/")
  {
    if |drop| == 0 then []
    else (if StartsWith(drop[0].MediaType(), "image/") then [drop[0]] else []) + ImageFiles(drop[1..])
  }

  /** The filter distributes over a split of the drop: drop order and repeated files are kept. */
  lemma {:induction false} ImageFilesConcat(a: seq<InputFile>, b: seq<InputFile>)
    ensures ImageFiles(a + b) == ImageFiles(a) + ImageFiles(b)
  {
    if |a| == 0 {
      assert a + b == b;
    } else {
      assert (a + b)[1..] == a[1..] + b;
      ImageFilesConcat(a[1..], b);
    }
  }

  /** `removeImageBackground` once the cut-out is known: the derived name and both sizes. */
  function RemoveImageBackground(f: InputFile, cutout: Blob): (r: ProcessedImage)
    ensures r.original == f.blob && r.processed == cutout
    ensures r.originalSize == r.original.Size() && r.processedSize == r.processed.Size()
    ensures forall p :: MatchesAt(f.name, p) ==> r.name == f.name[..p] + "_no_bg.png"
    ensures HasExtension(f.name) ==> EndsWith(r.name, "_no_bg.png")
    ensures !HasExtension(f.name) ==> r.name == f.name
  {
    DerivedNameShape(f.name, "_no_bg.png");
    ProcessedImage(NoBackgroundName(f.name), f.Size(), cutout.Size(), f.blob, cutout)
  }

  /**
    `onDrop`. Nothing is processed when no dropped file is typed as an image.
    Otherwise the image files are processed in drop order, with the mode's
    configuration, up to and including the first failure; the page receives
    one result per image, in order, only when every one succeeded. The busy
    flag and the progress bar are reset in every outcome.
   */
  method OnDrop(drop: seq<InputFile>, mode: QualityMode, remove: (InputFile, RemovalConfig) -> Option<Blob>)
    returns (report: DropReport<ProcessedImage>)
    ensures !report.busy && report.finalProgress == 0.0
    ensures ImageFiles(drop) == [] ==> report.requests == [] && report.progress == [] && report.delivered.None?
    ensures |ImageFiles(drop)| > 0 ==> 0 < |report.requests|
    ensures report.delivered.Some? <==>
      |ImageFiles(drop)| > 0 && forall i | 0 <= i < |ImageFiles(drop)| :: remove(ImageFiles(drop)[i], ConfigFor(mode)).Some?
    ensures
      var files := ImageFiles(drop);
      && |report.requests| <= |files|
      && report.requests == files[..|report.requests|]
      && (forall k | 0 <= k < |report.progress| :: |report.progress| <= |files| && report.progress[k] == Progress(k + 1, |files|))
      && (report.delivered.Some? ==>
            && |report.progress| == |files|
            && report.requests == files
            && |report.delivered.value| == |files|
            && forall i | 0 <= i < |files| ::
                 && remove(files[i], ConfigFor(mode)).Some?
                 && report.delivered.value[i] == RemoveImageBackground(files[i], remove(files[i], ConfigFor(mode)).value))
      && (report.delivered.None? && 0 < |report.requests| ==>
            && |report.progress| == |report.requests| - 1
            && remove(files[|report.requests| - 1], ConfigFor(mode)).None?
            && forall i | 0 <= i < |report.requests| - 1 :: remove(files[i], ConfigFor(mode)).Some?)
  {
    var files := ImageFiles(drop);
    if |files| == 0 {
      return DropReport([], [], None, false, 0.0);
    }
    var config := ConfigFor(mode);
    var requests, progress, cutouts := RunSequentially(files, f => remove(f, config));
    var delivered: Option<seq<ProcessedImage>> := None;
    if cutouts.Some? {
      delivered := Some(seq(|files|, i requires 0 <= i < |files| => RemoveImageBackground(files[i], cutouts.value[i])));
    }
    report := DropReport(requests, progress, delivered, false, 0.0);
  }

  /** The page after a drop: the delivered batch is appended; an aborted drop leaves the list exactly as it was. */
  function AfterDrop(prev: seq<ProcessedImage>, report: DropReport<ProcessedImage>): (r: seq<ProcessedImage>)
    ensures report.delivered.None? ==> r == prev
    ensures report.delivered.Some? ==>
      && |r| == |prev| + |report.delivered.value|
      && r[..|prev|] == prev
      && r[|prev|..] == report.delivered.value
  {
    match report.delivered
    case Some(images) => HandleImagesProcessed(prev, images)
    case None => prev
  }

  /**
    On a drop without archives both drop zones pick the same files in the same
    order: the converter's flattening reduces to this filter.
   */
  lemma {:induction false} SameFilesWithoutArchives(drop: seq<InputFile>, unzip: InputFile -> Option<seq<ImageDropzone.ZipEntry>>)
    requires forall i | 0 <= i < |drop| :: ImageDropzone.Classify(drop[i]) != ImageDropzone.Archive
    ensures ImageDropzone.FilesToProcess(drop, unzip) == Some(ImageFiles(drop))
  {
    if |drop| > 0 {
      assert forall i | 0 <= i < |drop[1..]| :: drop[1..][i] == drop[i + 1];
      SameFilesWithoutArchives(drop[1..], unzip);
    }
  }

  /** A file named "*.zip" but typed as an image is an archive to the converter and an image here. */
  lemma ZipNamedImageDiffers()
    ensures var f := InputFile("photos.zip", Blob("image/png", []));
      && ImageFiles([f]) == [f]
      && ImageDropzone.Classify(f) == ImageDropzone.Archive
  {
    ImageDropzone.ZipNameBeatsImageType();
  }
}

=== FILE: background_removal_result.dfy ===
/**
  The background remover's result view: the two size totals, the two
  downloads, and the touch-up editor's save. Saving an edit replaces the
  cut-out an image points at, in place; the recorded processed size is left
  as it was.
 */
module BackgroundRemovalResult {

  import opened Common
  import opened RemoveBgPage
  import opened Totals
  import opened Export

  function OriginalSizeOf(image: ProcessedImage): nat { image.originalSize }

  function ProcessedSizeOf(image: ProcessedImage): nat { image.processedSize }

  /** The summary cards: the count and both totals (this view shows no percentage). */
  datatype Summary = Summary(count: nat, totalOriginal: nat, totalProcessed: nat)

  function Summarize(images: seq<ProcessedImage>): (s: Summary)
    ensures s.count == |images|
    ensures s.totalOriginal == SumSizes(images, OriginalSizeOf) && s.totalProcessed == SumSizes(images, ProcessedSizeOf)
    ensures images == [] ==> s.totalOriginal == 0 && s.totalProcessed == 0
    ensures forall i | 0 <= i < |images| :: images[i].originalSize <= s.totalOriginal && images[i].processedSize <= s.totalProcessed
  {
    SumSizesBoundsItems(images, OriginalSizeOf);
    SumSizesBoundsItems(images, ProcessedSizeOf);
    Summary(|images|, SumSizes(images, OriginalSizeOf), SumSizes(images, ProcessedSizeOf))
  }

  /** `downloadSingle`: the cut-out the image currently points at, saved under the image's (derived) name. */
  function DownloadSingle(image: ProcessedImage): (r: SingleDownload)
    ensures r.fileName == image.name && r.data == image.processed
    ensures Contents(DownloadAll([image]).value.entries) == map[r.fileName := r.data]
  {
    assert DownloadAll([image]).value.entries[..0] == [];
    SingleDownload(image.name, image.processed)
  }

  /** `downloadAll`: nothing for an empty list; otherwise one entry per image, in list order, holding its current cut-out. */
  function DownloadAll(images: seq<ProcessedImage>): (r: Option<ArchiveDownload>)
    ensures r.None? <==> images == []
    ensures r.Some? ==> r.value.fileName == "background-removed-images.zip" && |r.value.entries| == |images|
    ensures r.Some? ==> forall i | 0 <= i < |images| :: r.value.entries[i].name == images[i].name
  {
    if |images| == 0 then None
    else Some(ArchiveDownload("background-removed-images.zip", seq(|images|, i requires 0 <= i < |images| => Entry(images[i].name, images[i].processed))))
  }

  /**
    The touch-up editor's `onSave` for the image at position `k`: its
    processed URL now points at the edited PNG. Nothing else of that image,
    and nothing of any other image, changes.
   */
  function SaveTouchup(images: seq<ProcessedImage>, k: nat, edited: Blob): (r: seq<ProcessedImage>)
    requires k < |images|
    ensures |r| == |images|
    ensures r[k].processed == edited
    ensures r[k].name == images[k].name && r[k].original == images[k].original
    ensures r[k].originalSize == images[k].originalSize && r[k].processedSize == images[k].processedSize
    ensures forall i | 0 <= i < |images| && i != k :: r[i] == images[i]
  {
    images[k := images[k].(processed := edited)]
  }

  /** A touch-up leaves both totals exactly as they were. */
  lemma TouchupKeepsTotals(images: seq<ProcessedImage>, k: nat, edited: Blob)
    requires k < |images|
    ensures Summarize(SaveTouchup(images, k, edited)) == Summarize(images)
  {
    var r := SaveTouchup(images, k, edited);
    SumSizesPointwise(r, images, OriginalSizeOf);
    SumSizesPointwise(r, images, ProcessedSizeOf);
  }

  /** After a touch-up both downloads carry the edited cut-out for that image, and the archive still has one entry per image. */
  lemma TouchupReachesDownloads(images: seq<ProcessedImage>, k: nat, edited: Blob)
    requires k < |images|
    ensures DownloadSingle(SaveTouchup(images, k, edited)[k]).data == edited
    ensures DownloadAll(SaveTouchup(images, k, edited)).Some?
    ensures DownloadAll(SaveTouchup(images, k, edited)).value.entries[k].data == edited
    ensures |DownloadAll(SaveTouchup(images, k, edited)).value.entries| == |images|
  {
  }

  /**
    The processed size shown next to a touched-up image is the size of the
    cut-out before the edit, whatever the edit's size.
   */
  lemma TouchupSizeIsStale(b: Blob)
    ensures var before := ProcessedImage("a_no_bg.png", 10, 3, b, Blob("image/png", [1, 2, 3]));
      var after := SaveTouchup([before], 0, Blob("image/png", [1]))[0];
      after.processed.Size() == 1 && after.processedSize == 3
  {
  }

  /**
    The archive holds what the single download of an image would save, for
    every image whose name no later image reuses.
   */
  lemma BulkAgreesWithSingle(images: seq<ProcessedImage>, i: nat)
    requires i < |images|
    requires forall j | i < j < |images| :: images[j].name != images[i].name
    ensures DownloadAll(images).Some?
    ensures DownloadSingle(images[i]).fileName in Contents(DownloadAll(images).value.entries)
    ensures Contents(DownloadAll(images).value.entries)[DownloadSingle(images[i]).fileName] == DownloadSingle(images[i]).data
  {
    LastWriteWins(DownloadAll(images).value.entries, i);
  }

  /** A delivered batch adds its own totals to the shown ones; clearing zeroes them. */
  lemma SummaryAfterAppend(prev: seq<ProcessedImage>, batch: seq<ProcessedImage>)
    ensures Summarize(HandleImagesProcessed(prev, batch)).totalOriginal == Summarize(prev).totalOriginal + Summarize(batch).totalOriginal
    ensures Summarize(HandleImagesProcessed(prev, batch)).totalProcessed == Summarize(prev).totalProcessed + Summarize(batch).totalProcessed
    ensures Summarize(HandleClearAll(prev)) == Summary(0, 0, 0)
  {
    SumSizesConcat(prev, batch, OriginalSizeOf);
    SumSizesConcat(prev, batch, ProcessedSizeOf);
  }
}

=== FILE: batch.dfy ===
/**
  The sequential loop both drop zones share: items are handed to the per-item
  processor one at a time, in list order; after the k-th success the progress
  bar is set to k / total * 100; the first failure throws out of the loop, so
  the batch collected so far is discarded.
 */
module Batch {

  import opened Common

  /** `(done / total) * 100`, over exact reals. */
  function Progress(done: nat, total: nat): (r: real)
    requires 0 < total
    ensures r * total as real == 100.0 * done as real
    ensures done <= total ==> 0.0 <= r <= 100.0
  {
    var t := total as real;
    assert (done as real / t) * t == done as real;
    (done as real / t) * 100.0
  }

  /**
    What one drop did as the user and the per-item processor see it: the items
    handed to the processor in order, the values the progress bar took after
    each completed item, the batch given to the page (None: nothing was
    delivered), and the busy flag and progress bar after the `finally` block.
   */
  datatype DropReport<R> = DropReport(
    requests: seq<InputFile>,
    progress: seq<real>,
    delivered: Option<seq<R>>,
    busy: bool,
    finalProgress: real)

  /**
    The `for` loop of `onDrop`: `step` is the per-item processor's outcome
    (None: a failed response or any thrown error). Every item up to and
    including the first failure is requested; the outputs survive only when
    no item failed.
   */
  method RunSequentially<B>(items: seq<InputFile>, step: InputFile -> Option<B>)
    returns (requests: seq<InputFile>, progress: seq<real>, outputs: Option<seq<B>>)
    ensures |requests| <= |items| && requests == items[..|requests|]
    ensures outputs.Some? <==> forall i | 0 <= i < |items| :: step(items[i]).Some?
    ensures outputs.Some? ==>
      && requests == items
      && |outputs.value| == |items|
      && forall i | 0 <= i < |items| :: step(items[i]) == Some(outputs.value[i])
    ensures outputs.None? ==>
      && 0 < |requests|
      && step(items[|requests| - 1]).None?
      && forall i | 0 <= i < |requests| - 1 :: step(items[i]).Some?
    ensures |progress| == if outputs.Some? then |items| else |requests| - 1
    ensures forall k | 0 <= k < |progress| :: |progress| <= |items| && progress[k] == Progress(k + 1, |items|)
  {
    requests, progress := [], [];
    var done: seq<B> := [];
    var i := 0;
    while i < |items|
      invariant 0 <= i <= |items|
      invariant requests == items[..i]
      invariant |done| == i && |progress| == i
      invariant forall j | 0 <= j < i :: step(items[j]) == Some(done[j])
      invariant forall k | 0 <= k < i :: progress[k] == Progress(k + 1, |items|)
    {
      requests := requests + [items[i]];
      var outcome := step(items[i]);
      if outcome.None? {
        outputs := None;
        return;
      }
      done := done + [outcome.value];
      progress := progress + [Progress(i + 1, |items|)];
      i := i + 1;
    }
    outputs := Some(done);
  }

  /** The progress bar rises strictly with every completed item and reads 100 exactly after the last one. */
  lemma ProgressRisesToHundred(done: nat, total: nat)
    requires 0 < done <= total
    ensures 0.0 < Progress(done, total) <= 100.0
    ensures done < total ==> Progress(done, total) < Progress(done + 1, total)
    ensures Progress(done, total) == 100.0 <==> done == total
  {
    var t := total as real;
    assert Progress(done, total) == (done as real) * (100.0 / t);
    assert Progress(done + 1, total) == (done as real) * (100.0 / t) + 100.0 / t;
    assert 0.0 < 100.0 / t;
    assert Progress(total, total) == 100.0;
  }
}

=== FILE: common.dfy ===
/**
  Values shared by every part of the image utility: byte blobs, the browser's
  `File` (a blob with a name), and the few string tests the source applies to
  names and media types.
 */
module Common {

  datatype Option<+T> = None | Some(value: T)

  /** One byte of a file or of an encoded image. */
  newtype byte = x: int | 0 <= x < 256

  /** A browser `Blob`: its bytes and its declared media type (possibly empty). */
  datatype Blob = Blob(mediaType: string, data: seq<byte>)
  {
    /** `blob.size`: the number of bytes held. */
    function Size(): nat { |data| }
  }

  /** A browser `File`: a blob that also carries a file name. */
  datatype InputFile = InputFile(name: string, blob: Blob)
  {
    function Size(): nat { blob.Size() }
    function MediaType(): string { blob.mediaType }
  }

  /** `s.startsWith(prefix)` */
  predicate StartsWith(s: string, prefix: string) {
    |prefix| <= |s| && s[..|prefix|] == prefix
  }

  /** `s.endsWith(suffix)` */
  predicate EndsWith(s: string, suffix: string) {
    |suffix| <= |s| && s[|s| - |suffix|..] == suffix
  }

  /** Case folding of a regular expression with the `i` flag: only ASCII letters fold. */
  function AsciiLower(c: char): char {
    if 'A' <= c <= 'Z' then (c as int + 32) as char else c
  }

  /** `s` ends in `suffix` (written in lower case) when letters are compared case-insensitively. */
  predicate EndsWithIgnoreCase(s: string, suffix: string) {
    |suffix| <= |s| && forall i | 0 <= i < |suffix| :: AsciiLower(s[|s| - |suffix| + i]) == suffix[i]
  }
}

=== FILE: conversion_result.dfy ===
/**
  The converter's result view: size totals over every converted image, the
  rounded savings percentage (per image and for the whole list), and the two
  downloads.
 */
module ConversionResult {

  import opened Common
  import opened ConverterPage
  import opened Totals
  import opened Export
  import opened Arithmetic

  /** What a JavaScript number computed here can be: an integer, or what a division by zero gives. */
  datatype JsNumber = Finite(value: int) | NaN | NegativeInfinity

  /** `Math.round`: the nearest integer, halves rounded toward +infinity. */
  function JsRound(x: real): (r: int)
    ensures r as real - 0.5 <= x < r as real + 0.5
  {
    (x + 0.5).Floor
  }

  /**
    `calculateSavings(original, webp)`: `Math.round((original - webp) / original * 100)`.
    With an empty original the quotient is NaN (0 / 0) or -Infinity (a
    negative number over 0), and rounding keeps it.
   */
  function CalculateSavings(original: nat, webp: nat): (r: JsNumber)
    ensures original > 0 ==>
      var exact := (original - webp) as real / original as real * 100.0;
      r.Finite? && r.value as real - 0.5 <= exact < r.value as real + 0.5
    ensures original == 0 ==> (r == NaN <==> webp == 0) && (r == NegativeInfinity <==> webp > 0)
  {
    if original == 0 then (if webp == 0 then NaN else NegativeInfinity)
    else Finite(JsRound((original - webp) as real / original as real * 100.0))
  }

  /** Savings in integer arithmetic: floor((200 * (o - w) + o) / (2 * o)). */
  lemma SavingsIntegerForm(original: nat, webp: nat)
    requires original > 0
    ensures CalculateSavings(original, webp) == Finite((200 * (original - webp) + original) / (2 * original))
  {
    var o := original as real;
    var d := original - webp;
    var y := d as real / o;
    var x := y * 100.0;
    var n := 200 * d + original;
    var m := 2 * original;
    assert y * o == d as real;
    assert (x + 0.5) * m as real == n as real;
    QuotientOf(x + 0.5, n as real, m as real);
    FloorOfQuotient(n, m);
  }

  /** No change is 0%, an empty WebP is 100%, a larger WebP never shows savings. */
  lemma SavingsLandmarks(original: nat, webp: nat)
    requires original > 0
    ensures CalculateSavings(original, original) == Finite(0)
    ensures CalculateSavings(original, 0) == Finite(100)
    ensures webp > original ==> CalculateSavings(original, webp).value <= 0
  {
    var m := 2 * original;
    SavingsIntegerForm(original, original);
    QuotientIs(original, m, 0);
    SavingsIntegerForm(original, 0);
    QuotientIs(201 * original, m, 100);
    if webp > original {
      SavingsIntegerForm(original, webp);
      QuotientSign(200 * (original - webp) + original, m);
    }
  }

  /** A larger WebP shows a negative percentage only when it is more than half a percent larger; otherwise it rounds to 0. */
  lemma SavingsNegativeIff(original: nat, webp: nat)
    requires original > 0 && webp > original
    ensures CalculateSavings(original, webp).value < 0 <==> 200 * (webp - original) > original
  {
    SavingsIntegerForm(original, webp);
    QuotientSign(200 * (original - webp) + original, 2 * original);
  }

  function OriginalSizeOf(image: ConvertedImage): nat { image.originalSize }

  function WebpSizeOf(image: ConvertedImage): nat { image.webpSize }

  /** The summary cards: count, both totals, the savings of the totals, and the bytes saved. */
  datatype Summary = Summary(count: nat, totalOriginal: nat, totalWebp: nat, savings: JsNumber, bytesSaved: int)

  function Summarize(images: seq<ConvertedImage>): (s: Summary)
    ensures s.count == |images|
    ensures s.totalOriginal == SumSizes(images, OriginalSizeOf) && s.totalWebp == SumSizes(images, WebpSizeOf)
    ensures s.savings == CalculateSavings(s.totalOriginal, s.totalWebp)
    ensures s.bytesSaved == s.totalOriginal - s.totalWebp
    ensures images == [] ==> s.totalOriginal == 0 && s.totalWebp == 0 && s.savings == NaN
    ensures s.bytesSaved < 0 <==> s.totalWebp > s.totalOriginal
  {
    var o := SumSizes(images, OriginalSizeOf);
    var w := SumSizes(images, WebpSizeOf);
    Summary(|images|, o, w, CalculateSavings(o, w), o - w)
  }

  /** For a single image the summary cards repeat that image's own sizes and percentage. */
  lemma SummaryOfOne(image: ConvertedImage)
    ensures Summarize([image]).totalOriginal == image.originalSize
    ensures Summarize([image]).totalWebp == image.webpSize
    ensures Summarize([image]).savings == CalculateSavings(image.originalSize, image.webpSize)
  {
    SumSizesSingle(image, OriginalSizeOf);
    SumSizesSingle(image, WebpSizeOf);
  }

  /** A delivered batch adds its own totals to the shown ones; clearing zeroes them. */
  lemma SummaryAfterAppend(prev: seq<ConvertedImage>, batch: seq<ConvertedImage>)
    ensures Summarize(HandleImagesConverted(prev, batch)).totalOriginal == Summarize(prev).totalOriginal + Summarize(batch).totalOriginal
    ensures Summarize(HandleImagesConverted(prev, batch)).totalWebp == Summarize(prev).totalWebp + Summarize(batch).totalWebp
    ensures Summarize(HandleImagesConverted(prev, batch)).bytesSaved == Summarize(prev).bytesSaved + Summarize(batch).bytesSaved
    ensures Summarize(HandleClearAll(prev)).totalOriginal == 0 && Summarize(HandleClearAll(prev)).totalWebp == 0
  {
    SumSizesConcat(prev, batch, OriginalSizeOf);
    SumSizesConcat(prev, batch, WebpSizeOf);
  }

  /**
    The overall percentage comes from the totals, not from the per-image
    percentages: a halved 100-byte image next to an unchanged 1000-byte one
    shows 50% and 0%, whose mean is 25%, while the summary shows 5%.
   */
  lemma SavingsFromTotalsNotAverage(b: Blob)
    ensures var images := [ConvertedImage("a.webp", 100, 50, b, b), ConvertedImage("b.webp", 1000, 1000, b, b)];
      && CalculateSavings(100, 50) == Finite(50)
      && CalculateSavings(1000, 1000) == Finite(0)
      && Summarize(images).totalOriginal == 1100
      && Summarize(images).totalWebp == 1050
      && Summarize(images).savings == Finite(5)
  {
    var images := [ConvertedImage("a.webp", 100, 50, b, b), ConvertedImage("b.webp", 1000, 1000, b, b)];
    assert images[..1] == [images[0]] && images[..1][..0] == [];
    assert SumSizes(images[..1], OriginalSizeOf) == 100;
    assert SumSizes(images[..1], WebpSizeOf) == 50;
    SavingsIntegerForm(100, 50);
    SavingsIntegerForm(1000, 1000);
    SavingsIntegerForm(1100, 1050);
  }

  /** `downloadSingle`: the WebP bytes saved under the image's (derived) name. */
  function DownloadSingle(image: ConvertedImage): (r: SingleDownload)
    ensures r.fileName == image.name && r.data == image.webp
    ensures Contents(DownloadAll([image]).value.entries) == map[r.fileName := r.data]
  {
    assert DownloadAll([image]).value.entries[..0] == [];
    SingleDownload(image.name, image.webp)
  }

  /** `downloadAll`: nothing for an empty list; otherwise one entry per image, in list order, keyed by its name. */
  function DownloadAll(images: seq<ConvertedImage>): (r: Option<ArchiveDownload>)
    ensures r.None? <==> images == []
    ensures r.Some? ==> r.value.fileName == "converted-images.zip" && |r.value.entries| == |images|
    ensures r.Some? ==> forall i | 0 <= i < |images| :: r.value.entries[i].name == images[i].name
  {
    if |images| == 0 then None
    else Some(ArchiveDownload("converted-images.zip", seq(|images|, i requires 0 <= i < |images| => Entry(images[i].name, images[i].webp))))
  }

  /**
    The archive holds what the single download of an image would save, for
    every image whose name no later image reuses; an earlier image with a
    reused name is lost from the archive.
   */
  lemma BulkAgreesWithSingle(images: seq<ConvertedImage>, i: nat)
    requires i < |images|
    requires forall j | i < j < |images| :: images[j].name != images[i].name
    ensures DownloadAll(images).Some?
    ensures DownloadSingle(images[i]).fileName in Contents(DownloadAll(images).value.entries)
    ensures Contents(DownloadAll(images).value.entries)[DownloadSingle(images[i]).fileName] == DownloadSingle(images[i]).data
  {
    LastWriteWins(DownloadAll(images).value.entries, i);
  }
}

=== FILE: convert_route.dfy ===
/**
  The conversion endpoint (`POST /api/convert`): three checks in a fixed order
  (field present, at most 50 MiB, an `image/` media type), then the WebP
  encoder, then a response carrying the WebP bytes under a derived file name.
  Any error thrown inside the handler's `try` becomes a 500 response.

  The encoder (`sharp(...).webp(...).toBuffer()`) is a parameter: it returns
  the encoded bytes or fails.
 */
module ConvertRoute {

  import opened Common
  import opened FileNames

  /** `50 * 1024 * 1024` */
  const MaxSize: nat := 52428800

  /** A multipart form value as `formData.get` returns it: a file, or a plain string. */
  datatype FormValue = FileValue(file: InputFile) | TextValue(text: string)

  datatype FormField = FormField(name: string, value: FormValue)

  /** The request body as `request.formData()` reads it; None when it cannot be read as form data (that call throws). */
  datatype Request = Request(form: Option<seq<FormField>>)

  datatype Response =
    | JsonError(status: nat, error: string)
    | WebpResponse(body: seq<byte>, contentType: string, contentDisposition: string)
  {
    function Status(): nat {
      match this
      case JsonError(status, _) => status
      case WebpResponse(_, _, _) => 200
    }
  }

  const MissingImage := JsonError(400, "No image file provided")
  const TooLarge := JsonError(400, "File size too large. Maximum size is 50MB.")
  const NotAnImage := JsonError(400, "File must be an image")
  const ConversionFailed := JsonError(500, "Failed to convert image")

  /** `formData.get(name)`: the first field of that name. */
  function GetField(fields: seq<FormField>, name: string): (r: Option<FormValue>)
    ensures r.None? <==> forall i | 0 <= i < |fields| :: fields[i].name != name
    ensures r.Some? ==> exists i | 0 <= i < |fields| ::
      && fields[i].name == name
      && fields[i].value == r.value
      && forall k | 0 <= k < i :: fields[k].name != name
  {
    if |fields| == 0 then None
    else if fields[0].name == name then Some(fields[0].value)
    else GetField(fields[1..], name)
  }

  /**
    A header value the runtime's `Headers` accepts: Web IDL's ByteString
    conversion throws on a character above U+00FF, and the Fetch standard
    refuses NUL, CR and LF inside a value.
   */
  predicate IsValidHeaderValue(v: string) {
    forall i | 0 <= i < |v| :: v[i] <= '\U{FF}' && v[i] != '\U{0}' && v[i] != '\n' && v[i] != '\r'
  }

  /** The `Content-Disposition` value of a successful response. */
  function Disposition(name: string): (r: string)
    ensures |r| == |WebpName(name)| + 23
    ensures StartsWith(r, "attachment; filename=\"") && r[22..|r| - 1] == WebpName(name) && r[|r| - 1] == '"'
    ensures IsValidHeaderValue(r) <==> IsValidHeaderValue(WebpName(name))
  {
    var prefix := "attachment; filename=\"";
    var w := WebpName(name);
    var r := prefix + w + "\"";
    assert |prefix| == 22 && IsValidHeaderValue(prefix);
    assert r[..22] == prefix && r[22..|r| - 1] == w;
    assert forall i | 0 <= i < |w| :: r[22 + i] == w[i];
    assert forall i | 0 <= i < 22 :: r[i] == prefix[i];
    r
  }

  /** The uploaded file passes all three checks. */
  predicate Acceptable(f: InputFile) {
    f.Size() <= MaxSize && StartsWith(f.MediaType(), "image/")
  }

  /**
    `POST`. A missing field or an empty string is "no image" (400); a
    non-empty string has no size and no type, so reading its type throws
    (500). A file is checked for size, then for type; only a file passing
    both reaches the encoder. An encoder failure, or a file name the response
    header cannot carry, ends in the 500 path.
   */
  function Post(req: Request, encode: seq<byte> -> Option<seq<byte>>): (r: Response)
    ensures r.Status() in {200, 400, 500}
    ensures r.Status() == 400 ==> r in {MissingImage, TooLarge, NotAnImage}
    ensures !r.WebpResponse? && r.Status() != 400 ==> r == ConversionFailed
    ensures r.Status() == 400 <==>
      && req.form.Some?
      && match GetField(req.form.value, "image")
         case None => true
         case Some(TextValue(t)) => t == ""
         case Some(FileValue(f)) => !Acceptable(f)
    ensures r.WebpResponse? <==>
      && req.form.Some?
      && match GetField(req.form.value, "image")
         case Some(FileValue(f)) =>
           Acceptable(f) && encode(f.blob.data).Some? && IsValidHeaderValue(Disposition(f.name))
         case _ => false
    ensures r.WebpResponse? ==>
      var f := GetField(req.form.value, "image").value.file;
      && r.body == encode(f.blob.data).value
      && r.contentType == "image/webp"
      && r.contentDisposition == Disposition(f.name)
  {
    match req.form
    case None => ConversionFailed
    case Some(fields) =>
      match GetField(fields, "image")
      case None => MissingImage
      case Some(TextValue(t)) => if t == "" then MissingImage else ConversionFailed
      case Some(FileValue(f)) =>
        if f.Size() > MaxSize then TooLarge
        else if !StartsWith(f.MediaType(), "image/") then NotAnImage
        else
          match encode(f.blob.data)
          case None => ConversionFailed
          case Some(webp) =>
            if IsValidHeaderValue(Disposition(f.name)) then WebpResponse(webp, "image/webp", Disposition(f.name))
            else ConversionFailed
  }

  /** The characters the multipart/form-data encoding escapes in a file name. */
  predicate IsEscapedInName(c: char) { c == '"' || c == '\r' || c == '\n' }

  function EscapeChar(c: char): string {
    if c == '"' then "%22" else if c == '\r' then "%0D" else if c == '\n' then "%0A" else [c]
  }

  /**
    The file name as it arrives at the endpoint: the HTML Standard's
    multipart/form-data encoding writes '"', CR and LF as "%22", "%0D" and
    "%0A", and the endpoint's form parser does not decode them.
   */
  function MultipartName(name: string): (r: string)
    ensures |r| >= |name|
    ensures forall i | 0 <= i < |r| :: !IsEscapedInName(r[i])
    ensures r == name <==> forall i | 0 <= i < |name| :: !IsEscapedInName(name[i])
  {
    if |name| == 0 then ""
    else
      var rest := MultipartName(name[1..]);
      assert forall i | 0 < i < |name| :: name[i] == name[1..][i - 1];
      assert IsEscapedInName(name[0]) ==> |EscapeChar(name[0]) + rest| > |name|;
      EscapeChar(name[0]) + rest
  }

  /** Escaping an already escaped name changes nothing. */
  lemma MultipartNameIdempotent(name: string)
    ensures MultipartName(MultipartName(name)) == MultipartName(name)
  {
  }

  /**
    The request the drop zone sends: one field `image`, holding the file's
    bytes under its escaped name; a file without a type travels as
    application/octet-stream.
   */
  function UploadRequest(f: InputFile): (r: Request)
    ensures r.form.Some? && GetField(r.form.value, "image").Some? && GetField(r.form.value, "image").value.FileValue?
    ensures var sent := GetField(r.form.value, "image").value.file;
      && sent.name == MultipartName(f.name) && sent.blob.data == f.blob.data
      && (f.MediaType() != "" ==> sent.blob == f.blob)
      && (f.MediaType() == "" ==> sent.MediaType() == "application/octet-stream")
  {
    var blob := if f.MediaType() == "" then Blob("application/octet-stream", f.blob.data) else f.blob;
    Request(Some([FormField("image", FileValue(InputFile(MultipartName(f.name), blob)))]))
  }

  lemma OctetStreamIsNotImage()
    ensures !StartsWith("application/octet-stream", "image/")
  {
    assert "application/octet-stream"[..6][0] == 'a';
  }

  /** The drop zone's per-item outcome when it talks to this endpoint: only a 200 response yields a blob. */
  function ServerConvert(encode: seq<byte> -> Option<seq<byte>>, f: InputFile): (r: Option<Blob>)
    ensures r.Some? <==> Acceptable(f) && encode(f.blob.data).Some? && IsValidHeaderValue(Disposition(MultipartName(f.name)))
    ensures r.Some? ==> r.value == Blob("image/webp", encode(f.blob.data).value)
  {
    OctetStreamIsNotImage();
    match Post(UploadRequest(f), encode)
    case WebpResponse(body, contentType, _) => Some(Blob(contentType, body))
    case JsonError(_, _) => None
  }

  /**
    The checks run in the order missing, size, type, whatever other fields the
    form holds: the first failing one names the error.
   */
  lemma CheckOrder(fields: seq<FormField>, encode: seq<byte> -> Option<seq<byte>>)
    ensures GetField(fields, "image").None? ==> Post(Request(Some(fields)), encode) == MissingImage
    ensures GetField(fields, "image") == Some(TextValue("")) ==> Post(Request(Some(fields)), encode) == MissingImage
    ensures GetField(fields, "image").Some? && GetField(fields, "image").value.FileValue? ==>
      var f := GetField(fields, "image").value.file;
      && (f.Size() > MaxSize ==> Post(Request(Some(fields)), encode) == TooLarge)
      && (f.Size() <= MaxSize && !StartsWith(f.MediaType(), "image/") ==> Post(Request(Some(fields)), encode) == NotAnImage)
  {
  }

  /** The size bound is inclusive: exactly 50 MiB is accepted, one byte more is refused whatever the type. */
  lemma SizeBoundary(f: InputFile, encode: seq<byte> -> Option<seq<byte>>)
    requires StartsWith(f.MediaType(), "image/") && encode(f.blob.data).Some? && IsValidHeaderValue(Disposition(f.name))
    ensures f.Size() == MaxSize ==> Post(Request(Some([FormField("image", FileValue(f))])), encode).Status() == 200
    ensures f.Size() == MaxSize + 1 ==> Post(Request(Some([FormField("image", FileValue(f))])), encode).Status() == 400
  {
  }

  /** The encoder is never consulted for a request the checks refuse: two encoders give the same response. */
  lemma EncoderOnlyAfterChecks(req: Request, e1: seq<byte> -> Option<seq<byte>>, e2: seq<byte> -> Option<seq<byte>>)
    requires !(req.form.Some? && GetField(req.form.value, "image").Some? &&
               GetField(req.form.value, "image").value.FileValue? &&
               Acceptable(GetField(req.form.value, "image").value.file))
    ensures Post(req, e1) == Post(req, e2)
  {
  }

  /**
    A file that is too large, or whose type (as sent) does not begin with
    "image/", fails on the server; in a drop this aborts the whole batch.
    Archive entries carry whatever type the archive reader gave them.
   */
  lemma ServerRefusesUnacceptable(encode: seq<byte> -> Option<seq<byte>>, f: InputFile)
    requires f.Size() > MaxSize || !StartsWith(f.MediaType(), "image/")
    ensures ServerConvert(encode, f).None?
  {
    OctetStreamIsNotImage();
  }

  /** The escape of a name holding a line feed. */
  lemma LineFeedEscape()
    ensures MultipartName("a\nb.png") == "a%0Ab.png"
  {
    var raw := "a\nb.png";
    assert MultipartName(raw[6..]) == "g";
    assert MultipartName(raw[5..]) == "ng";
    assert MultipartName(raw[4..]) == "png";
    assert MultipartName(raw[3..]) == ".png";
    assert MultipartName(raw[2..]) == "b.png";
    assert MultipartName(raw[1..]) == "%0Ab.png";
  }

  /** Sent unescaped, a line feed would end up inside the header value. */
  lemma RawLineFeedBreaksHeader()
    ensures !IsValidHeaderValue(Disposition("a\nb.png"))
  {
    var raw := "a\nb.png";
    assert WebpName(raw) == "a\nb.webp" by {
      assert MatchesAt(raw, 3);
      assert raw[..3] == "a\nb";
    }
    var d := Disposition(raw);
    assert d[22..|d| - 1][1] == '\n';
    assert d[23] == '\n';
  }

  /** The escaped name gives a valid header value. */
  lemma EscapedNameFitsHeader()
    ensures IsValidHeaderValue(Disposition("a%0Ab.png"))
  {
    var w := WebpName("a%0Ab.png");
    assert w == "a%0Ab.webp" by {
      assert MatchesAt("a%0Ab.png", 5);
      assert "a%0Ab.png"[..5] == "a%0Ab";
    }
    assert IsValidHeaderValue(w) by {
      forall i | 0 <= i < |w| ensures w[i] <= '\U{FF}' && w[i] != '\U{0}' && w[i] != '\n' && w[i] != '\r' {
        assert w[i] in "a%0Ab.webp";
      }
    }
  }

  /**
    A line feed in a file name does not reach the header: the browser sends it
    as "%0A", so the endpoint answers with "a%0Ab.webp". The raw name would
    not be a valid header value.
   */
  lemma LineFeedNameIsEscaped(encode: seq<byte> -> Option<seq<byte>>, data: seq<byte>)
    requires |data| <= MaxSize && encode(data).Some?
    ensures !IsValidHeaderValue(Disposition("a\nb.png"))
    ensures ServerConvert(encode, InputFile("a\nb.png", Blob("image/png", data))).Some?
  {
    RawLineFeedBreaksHeader();
    LineFeedEscape();
    EscapedNameFitsHeader();
    var f := InputFile("a\nb.png", Blob("image/png", data));
    assert StartsWith(f.MediaType(), "image/");
    assert Acceptable(f);
  }

  /** A character above U+00FF before the last dot survives into the header, so even a valid image gets the 500 path. */
  lemma NonLatin1NameFails(encode: seq<byte> -> Option<seq<byte>>, f: InputFile, i: nat, j: nat)
    requires Acceptable(f) && encode(f.blob.data).Some?
    requires i < j < |f.name| && f.name[i] > '\U{FF}' && f.name[j] == '.'
    ensures Post(Request(Some([FormField("image", FileValue(f))])), encode) == ConversionFailed
  {
    var w := WebpName(f.name);
    assert i < |w| && w[i] == f.name[i] by {
      if p :| MatchesAt(f.name, p) {
        assert j <= p;
        assert w == f.name[..p] + ".webp";
      }
    }
    var prefix := "attachment; filename=\"";
    assert |prefix| == 22;
    assert Disposition(f.name)[22 + i] == w[i];
    assert !IsValidHeaderValue(Disposition(f.name));
  }
}

=== FILE: converter_page.dfy ===
/**
  The WebP converter page: the record a conversion produces and the page's
  two state updates. Object URLs are modelled by the blobs they point to.
 */
module ConverterPage {

  import opened Common
  import ResultList

  /** One converted image: `url` points at the WebP bytes, `originalUrl` at the uploaded file. */
  datatype ConvertedImage = ConvertedImage(
    name: string,
    originalSize: nat,
    webpSize: nat,
    webp: Blob,
    original: Blob)

  /** `handleImagesConverted`: a delivered batch goes after everything already shown. */
  function HandleImagesConverted(prev: seq<ConvertedImage>, images: seq<ConvertedImage>): (r: seq<ConvertedImage>)
    ensures |r| == |prev| + |images|
    ensures r[..|prev|] == prev && r[|prev|..] == images
    ensures images == [] ==> r == prev
  {
    ResultList.Append(prev, images)
  }

  /** `handleClearAll` */
  function HandleClearAll(prev: seq<ConvertedImage>): (r: seq<ConvertedImage>)
    ensures r == []
    ensures forall images :: HandleImagesConverted(r, images) == images
  {
    ResultList.Clear(prev)
  }
}

=== FILE: export.dfy ===
/**
  Downloads from the result views: a single image is saved under its own
  name; "Download All" writes one archive entry per image with `zip.file(name,
  blob)`, in list order. The archive holds one file per distinct name: a later
  write of a name replaces the earlier one, and nothing is renamed.
 */
module Export {

  import opened Common

  /** One `zip.file(name, blob)` call. */
  datatype Entry = Entry(name: string, data: Blob)

  /** A ZIP download: the archive's file name and the entry writes made for it, in order. */
  datatype ArchiveDownload = ArchiveDownload(fileName: string, entries: seq<Entry>)

  /** A single-file download: the anchor's `download` name and the blob its URL points at. */
  datatype SingleDownload = SingleDownload(fileName: string, data: Blob)

  /** The archive's files after all writes, by name. */
  function Contents(entries: seq<Entry>): (m: map<string, Blob>)
    ensures m.Keys == set i | 0 <= i < |entries| :: entries[i].name
  {
    if |entries| == 0 then map[]
    else
      var last := entries[|entries| - 1];
      var before := Contents(entries[..|entries| - 1]);
      assert forall i | 0 <= i < |entries| - 1 :: entries[..|entries| - 1][i] == entries[i];
      before[last.name := last.data]
  }

  /** The file stored under a name is the data of the last write with that name. */
  lemma {:induction false} LastWriteWins(entries: seq<Entry>, i: nat)
    requires i < |entries|
    requires forall j | i < j < |entries| :: entries[j].name != entries[i].name
    ensures entries[i].name in Contents(entries)
    ensures Contents(entries)[entries[i].name] == entries[i].data
  {
    if i < |entries| - 1 {
      var prefix := entries[..|entries| - 1];
      assert forall j | i < j < |prefix| :: prefix[j] == entries[j];
      LastWriteWins(prefix, i);
    }
  }

  /** An earlier write is lost exactly when a later entry reuses its name with other data. */
  lemma DuplicateNameOverwrites(a: Blob, b: Blob)
    requires a != b
    ensures Contents([Entry("x.webp", a), Entry("x.webp", b)]) == map["x.webp" := b]
    ensures |Contents([Entry("x.webp", a), Entry("x.webp", b)])| == 1
  {
    assert [Entry("x.webp", a), Entry("x.webp", b)][..1] == [Entry("x.webp", a)];
    assert [Entry("x.webp", a)][..0] == [];
  }
}

=== FILE: file_names.dfy ===
/**
  The derived-name rule `name.replace(/\.[^/.]+$/, replacement)` used for the
  WebP converter (replacement ".webp", on the client and in the conversion
  endpoint) and for background removal (replacement "_no_bg.png").

  The regular expression has no `g` and no `m` flag, so the first position at
  which it matches is replaced and `$` matches only at the very end of the name.
 */
module FileNames {

  import opened Common

  /** A character the class `[^/.]` accepts. */
  predicate IsExtChar(c: char) { c != '/' && c != '.' }

  /** Reference semantics: `/\.[^/.]+$/` matches `s` starting at index `p`. */
  ghost predicate MatchesAt(s: string, p: int) {
    && 0 <= p
    && p + 1 < |s|
    && s[p] == '.'
    && forall j | p < j < |s| :: IsExtChar(s[j])
  }

  /** The regular expression matches `s` somewhere. */
  ghost predicate HasExtension(s: string) {
    exists p :: MatchesAt(s, p)
  }

  /** Length of the longest suffix of `s` made only of characters `[^/.]` accepts. */
  function ExtCharsAtEnd(s: string): (n: nat)
    ensures n <= |s|
    ensures forall j | |s| - n <= j < |s| :: IsExtChar(s[j])
    ensures n < |s| ==> !IsExtChar(s[|s| - n - 1])
  {
    if |s| == 0 || !IsExtChar(s[|s| - 1]) then 0 else ExtCharsAtEnd(s[..|s| - 1]) + 1
  }

  /** Where the match starts, scanning back from the end of the name. */
  function ExtensionDot(s: string): (r: Option<nat>)
    ensures forall p :: MatchesAt(s, p) <==> r == Some(p)
  {
    var n := ExtCharsAtEnd(s);
    if 0 < n < |s| && s[|s| - n - 1] == '.' then Some(|s| - n - 1) else None
  }

  /**
    `name.replace(/\.[^/.]+$/, replacement)`: the final extension (a dot
    followed by at least one character that is neither '/' nor '.', running
    to the end of the name) is replaced; a name without one is unchanged.
   */
  function ReplaceExtension(name: string, replacement: string): (r: string)
    ensures forall p :: MatchesAt(name, p) ==> r == name[..p] + replacement
    ensures !HasExtension(name) ==> r == name
  {
    match ExtensionDot(name)
    case Some(p) => name[..p] + replacement
    case None => name
  }

  /** The WebP converter's derived name. */
  function WebpName(name: string): string { ReplaceExtension(name, ".webp") }

  /** The background remover's derived name. */
  function NoBackgroundName(name: string): string { ReplaceExtension(name, "_no_bg.png") }

  /** A replacement that is itself a dot followed by `[^/.]` characters ends every derived name in a match at its own start. */
  lemma ReplacedNameMatchesAtStem(stem: string, replacement: string)
    requires MatchesAt(replacement, 0)
    ensures MatchesAt(stem + replacement, |stem|)
  {
    var s := stem + replacement;
    forall j | |stem| < j < |s|
      ensures IsExtChar(s[j])
    {
      assert s[j] == replacement[j - |stem|];
    }
  }

  /** With a well-formed extension as replacement (".webp"), deriving a name twice is deriving it once. */
  lemma ReplaceExtensionIdempotent(name: string, replacement: string)
    requires MatchesAt(replacement, 0)
    ensures ReplaceExtension(ReplaceExtension(name, replacement), replacement) == ReplaceExtension(name, replacement)
  {
    var r := ReplaceExtension(name, replacement);
    if p :| MatchesAt(name, p) {
      assert r == name[..p] + replacement;
      ReplacedNameMatchesAtStem(name[..p], replacement);
      assert (name[..p] + replacement)[..p] == name[..p];
    }
  }

  /** The WebP name is stable under a second conversion. */
  lemma WebpNameIdempotent(name: string)
    ensures WebpName(WebpName(name)) == WebpName(name)
  {
    assert MatchesAt(".webp", 0) by {
      assert forall j | 0 < j < 5 :: ".webp"[j] in "webp";
    }
    ReplaceExtensionIdempotent(name, ".webp");
  }

  /** A derived name that was changed ends in the replacement, and keeps everything before the final dot. */
  lemma DerivedNameShape(name: string, replacement: string)
    ensures HasExtension(name) ==>
      && EndsWith(ReplaceExtension(name, replacement), replacement)
      && StartsWith(name, ReplaceExtension(name, replacement)[..|ReplaceExtension(name, replacement)| - |replacement|])
  {
    if p :| MatchesAt(name, p) {
      var r := ReplaceExtension(name, replacement);
      assert r == name[..p] + replacement;
      assert r[..|r| - |replacement|] == name[..p];
      assert r[|r| - |replacement|..] == replacement;
    }
  }

  /** Only the last extension is replaced. */
  lemma ExampleLastExtension()
    ensures WebpName("a.tar.gz") == "a.tar.webp"
  {
    assert MatchesAt("a.tar.gz", 5);
    assert "a.tar.gz"[..5] == "a.tar";
  }

  /** A name starting with its only dot is all extension. */
  lemma ExampleDotFile()
    ensures WebpName(".bashrc") == ".webp"
  {
    assert MatchesAt(".bashrc", 0);
  }

  /** Without a dot, with a bare trailing dot, or with the last dot inside a directory, nothing changes. */
  lemma ExampleUnchanged()
    ensures WebpName("README") == "README"
    ensures WebpName("x.") == "x."
    ensures WebpName("d.v1/f") == "d.v1/f"
  {
    assert !HasExtension("README") by {
      forall p | MatchesAt("README", p) ensures false { }
    }
    assert !HasExtension("x.") by {
      forall p | MatchesAt("x.", p) ensures false { }
    }
    assert !HasExtension("d.v1/f") by {
      assert ExtCharsAtEnd("d.v1/f") == 1;
      assert ExtensionDot("d.v1/f") == None;
    }
  }

  /** The background-removal suffix is not itself an extension match, so deriving twice stacks it. */
  lemma NoBackgroundNameNotIdempotent()
    ensures NoBackgroundName(NoBackgroundName("a.jpg")) == "a_no_bg_no_bg.png"
  {
    assert MatchesAt("a.jpg", 1);
    assert "a.jpg"[..1] == "a";
    assert NoBackgroundName("a.jpg") == "a_no_bg.png";
    assert MatchesAt("a_no_bg.png", 7);
    assert "a_no_bg.png"[..7] == "a_no_bg";
  }
}

=== FILE: image_dropzone.dfy ===
/**
  The WebP converter's drop zone: which dropped files are archives, which are
  images and which are skipped; how an archive's image entries are spliced in
  at the archive's position; and the drop handler that converts the flattened
  list one item at a time and delivers all results or none.

  The archive reader (`JSZip.loadAsync`) and the conversion request (`fetch` to
  the conversion endpoint) are parameters: `unzip` lists an archive's entries or
  fails, `convert` gives the response body of a successful response or fails.
 */
module ImageDropzone {

  import opened Common
  import opened FileNames
  import opened Batch
  import opened ConverterPage

  datatype FileKind = Archive | DirectImage | Skipped

  /** `onDrop`'s tests, in the order it makes them: archive (by type, or by a case-sensitive ".zip" name) before image. */
  function Classify(f: InputFile): (r: FileKind)
    ensures r == Archive <==> f.MediaType() == "application/zip" || EndsWith(f.name, ".zip")
    ensures r == DirectImage ==> StartsWith(f.MediaType(), "image/")
    ensures StartsWith(f.MediaType(), "image/") && !EndsWith(f.name, ".zip") ==> r == DirectImage
  {
    assert StartsWith(f.MediaType(), "image/") ==> f.MediaType()[0] == 'i' != "application/zip"[0];
    if f.MediaType() == "application/zip" || EndsWith(f.name, ".zip") then Archive
    else if StartsWith(f.MediaType(), "image/") then DirectImage
    else Skipped
  }

  /** One archive entry as listed by the reader: `data` is None when its bytes cannot be decompressed. */
  datatype ZipEntry = ZipEntry(name: string, dir: bool, data: Option<Blob>)

  /** `/\.(jpg|jpeg|png|gif|bmp|tiff|webp)$/i` */
  predicate HasImageExtension(name: string) {
    || EndsWithIgnoreCase(name, ".jpg")
    || EndsWithIgnoreCase(name, ".jpeg")
    || EndsWithIgnoreCase(name, ".png")
    || EndsWithIgnoreCase(name, ".gif")
    || EndsWithIgnoreCase(name, ".bmp")
    || EndsWithIgnoreCase(name, ".tiff")
    || EndsWithIgnoreCase(name, ".webp")
  }

  /** The entry filter of `handleZipFile`. */
  predicate IsImageEntry(e: ZipEntry) {
    !e.dir && HasImageExtension(e.name)
  }

  /** The entries `handleZipFile` keeps, in archive order. */
  function ImageEntries(entries: seq<ZipEntry>): (r: seq<ZipEntry>)
    ensures |r| <= |entries|
    ensures forall e :: e in r <==> e in entries && IsImageEntry(e)
  {
    if |entries| == 0 then []
    else (if IsImageEntry(entries[0]) then [entries[0]] else []) + ImageEntries(entries[1..])
  }

  /** The File `handleZipFile` builds from a decoded entry: named by the full entry path. */
  function EntryFile(e: ZipEntry): (r: InputFile)
    requires e.data.Some?
    ensures r.name == e.name && r.blob == e.data.value
    ensures r.Size() == |e.data.value.data| && r.MediaType() == e.data.value.mediaType
  {
    InputFile(e.name, e.data.value)
  }

  /**
    `handleZipFile` once the archive is open: every kept entry is decoded in
    archive order; a kept entry that cannot be decoded throws. Entries the
    filter skips are never decoded, so their damage does not matter.
   */
  function ExtractImages(entries: seq<ZipEntry>): (r: Option<seq<InputFile>>)
    ensures r.Some? <==> forall e | e in ImageEntries(entries) :: e.data.Some?
    ensures r.Some? ==>
      && |r.value| == |ImageEntries(entries)|
      && forall i | 0 <= i < |r.value| :: ImageEntries(entries)[i].data.Some? && r.value[i] == EntryFile(ImageEntries(entries)[i])
  {
    if |entries| == 0 then Some([])
    else
      var rest := ExtractImages(entries[1..]);
      var e := entries[0];
      if !IsImageEntry(e) then rest
      else if e.data.None? || rest.None? then None
      else Some([EntryFile(e)] + rest.value)
  }

  /** What one dropped file contributes to the list of files to process (None: the drop handler throws). */
  function Contribution(f: InputFile, unzip: InputFile -> Option<seq<ZipEntry>>): (r: Option<seq<InputFile>>)
    ensures Classify(f) == DirectImage ==> r == Some([f])
    ensures Classify(f) == Skipped ==> r == Some([])
    ensures Classify(f) == Archive ==>
      (r.Some? <==> unzip(f).Some? && forall e | e in ImageEntries(unzip(f).value) :: e.data.Some?)
    ensures Classify(f) == Archive && unzip(f).Some? ==> r == ExtractImages(unzip(f).value)
    ensures Classify(f) == Archive && r.Some? ==> |r.value| == |ImageEntries(unzip(f).value)|
  {
    match Classify(f)
    case Archive => (match unzip(f) { case None => None case Some(entries) => ExtractImages(entries) })
    case DirectImage => Some([f])
    case Skipped => Some([])
  }

  /** `filesToProcess` after the first loop of `onDrop` (None: that loop threw). */
  function FilesToProcess(drop: seq<InputFile>, unzip: InputFile -> Option<seq<ZipEntry>>): (r: Option<seq<InputFile>>)
    ensures r.Some? <==> forall i | 0 <= i < |drop| :: Contribution(drop[i], unzip).Some?
    ensures r.Some? ==> forall i | 0 <= i < |drop| && Classify(drop[i]) == DirectImage :: drop[i] in r.value
  {
    if |drop| == 0 then Some([])
    else
      match Contribution(drop[0], unzip)
      case None => None
      case Some(head) =>
        match FilesToProcess(drop[1..], unzip)
        case None => None
        case Some(tail) => Some(head + tail)
  }

  /** `convertImageToWebP` once the response is known: the derived name and both sizes. */
  function ConvertImageToWebP(f: InputFile, response: Blob): (r: ConvertedImage)
    ensures r.original == f.blob && r.webp == response
    ensures r.originalSize == r.original.Size() && r.webpSize == r.webp.Size()
    ensures forall p :: MatchesAt(f.name, p) ==> r.name == f.name[..p] + ".webp"
    ensures HasExtension(f.name) ==> EndsWith(r.name, ".webp")
    ensures !HasExtension(f.name) ==> r.name == f.name
    ensures WebpName(r.name) == r.name
  {
    DerivedNameShape(f.name, ".webp");
    WebpNameIdempotent(f.name);
    ConvertedImage(WebpName(f.name), f.Size(), response.Size(), response, f.blob)
  }

  /**
    `onDrop`. Nothing is requested when flattening throws or yields no file.
    Otherwise the flattened files are requested in order up to and including
    the first failure; the page receives one result per file, in order, only
    when every request succeeded. The busy flag and the progress bar are reset
    in every outcome.
   */
  method OnDrop(drop: seq<InputFile>, unzip: InputFile -> Option<seq<ZipEntry>>, convert: InputFile -> Option<Blob>)
    returns (report: DropReport<ConvertedImage>)
    ensures !report.busy && report.finalProgress == 0.0
    ensures (FilesToProcess(drop, unzip).None? || FilesToProcess(drop, unzip) == Some([])) ==>
      report.requests == [] && report.progress == [] && report.delivered.None?
    ensures FilesToProcess(drop, unzip).Some? && |FilesToProcess(drop, unzip).value| > 0 ==> 0 < |report.requests|
    ensures report.delivered.Some? <==>
      && FilesToProcess(drop, unzip).Some?
      && |FilesToProcess(drop, unzip).value| > 0
      && forall i | 0 <= i < |FilesToProcess(drop, unzip).value| :: convert(FilesToProcess(drop, unzip).value[i]).Some?
    ensures FilesToProcess(drop, unzip).Some? ==>
      var files := FilesToProcess(drop, unzip).value;
      && |report.requests| <= |files|
      && report.requests == files[..|report.requests|]
      && (forall k | 0 <= k < |report.progress| :: |report.progress| <= |files| && report.progress[k] == Progress(k + 1, |files|))
      && (report.delivered.Some? ==>
            && report.requests == files
            && |report.progress| == |files|
            && |report.delivered.value| == |files|
            && forall i | 0 <= i < |files| ::
                 convert(files[i]).Some? && report.delivered.value[i] == ConvertImageToWebP(files[i], convert(files[i]).value))
      && (report.delivered.None? && 0 < |report.requests| ==>
            && |report.progress| == |report.requests| - 1
            && convert(files[|report.requests| - 1]).None?
            && forall i | 0 <= i < |report.requests| - 1 :: convert(files[i]).Some?)
  {
    var flattened := FilesToProcess(drop, unzip);
    if flattened.None? || |flattened.value| == 0 {
      return DropReport([], [], None, false, 0.0);
    }
    var files := flattened.value;
    var requests, progress, responses := RunSequentially(files, convert);
    var delivered: Option<seq<ConvertedImage>> := None;
    if responses.Some? {
      delivered := Some(seq(|files|, i requires 0 <= i < |files| => ConvertImageToWebP(files[i], responses.value[i])));
    }
    report := DropReport(requests, progress, delivered, false, 0.0);
  }

  /** The page after a drop: the delivered batch is appended; an aborted drop leaves the list exactly as it was. */
  function AfterDrop(prev: seq<ConvertedImage>, report: DropReport<ConvertedImage>): (r: seq<ConvertedImage>)
    ensures report.delivered.None? ==> r == prev
    ensures report.delivered.Some? ==>
      && |r| == |prev| + |report.delivered.value|
      && r[..|prev|] == prev
      && r[|prev|..] == report.delivered.value
  {
    match report.delivered
    case Some(images) => HandleImagesConverted(prev, images)
    case None => prev
  }

  /** Kept entries distribute over a split of the archive: archive order is kept. */
  lemma {:induction false} ImageEntriesConcat(a: seq<ZipEntry>, b: seq<ZipEntry>)
    ensures ImageEntries(a + b) == ImageEntries(a) + ImageEntries(b)
  {
    if |a| == 0 {
      assert a + b == b;
    } else {
      assert (a + b)[1..] == a[1..] + b;
      ImageEntriesConcat(a[1..], b);
    }
  }

  /** Flattening distributes over a split of the drop: each file's contribution is spliced in at its position. */
  lemma {:induction false} FilesToProcessConcat(a: seq<InputFile>, b: seq<InputFile>, unzip: InputFile -> Option<seq<ZipEntry>>)
    ensures FilesToProcess(a + b, unzip) ==
      match (FilesToProcess(a, unzip), FilesToProcess(b, unzip))
      case (Some(x), Some(y)) => Some(x + y)
      case _ => None
  {
    if |a| == 0 {
      assert a + b == b;
      if FilesToProcess(b, unzip).Some? {
        assert [] + FilesToProcess(b, unzip).value == FilesToProcess(b, unzip).value;
      }
    } else {
      assert (a + b)[1..] == a[1..] + b;
      FilesToProcessConcat(a[1..], b, unzip);
      match (Contribution(a[0], unzip), FilesToProcess(a[1..], unzip), FilesToProcess(b, unzip))
      case (Some(h), Some(x), Some(y)) =>
        assert h + (x + y) == (h + x) + y;
      case _ =>
    }
  }

  /** A single dropped file is flattened to its own contribution. */
  lemma FilesToProcessSingle(f: InputFile, unzip: InputFile -> Option<seq<ZipEntry>>)
    ensures FilesToProcess([f], unzip) == Contribution(f, unzip)
  {
    if Contribution(f, unzip).Some? {
      assert Contribution(f, unzip).value + [] == Contribution(f, unzip).value;
    }
  }

  /** An archive test comes first: an image-typed file named "*.zip" is opened as an archive. */
  lemma ZipNameBeatsImageType()
    ensures Classify(InputFile("photos.zip", Blob("image/png", []))) == Archive
    ensures Classify(InputFile("photos.ZIP", Blob("image/png", []))) == DirectImage
    ensures Classify(InputFile("notes.txt", Blob("text/plain", []))) == Skipped
  {
    assert EndsWith("photos.zip", ".zip");
    assert !EndsWith("photos.ZIP", ".zip") by {
      assert "photos.ZIP"[6..] != ".zip" by { assert "photos.ZIP"[6..][1] == 'Z'; }
    }
    assert StartsWith("image/png", "image/");
    assert !StartsWith("text/plain", "image/") by { assert "text/plain"[..6][0] == 't'; }
  }

  /** One differing character decides that a name does not end in a suffix. */
  lemma MismatchAt(s: string, suffix: string, i: nat)
    requires i < |suffix| <= |s| && AsciiLower(s[|s| - |suffix| + i]) != suffix[i]
    ensures !EndsWithIgnoreCase(s, suffix)
  {
  }

  /** The entry filter ignores letter case and looks at the end of the full path only. */
  lemma EntryFilterExamples()
    ensures IsImageEntry(ZipEntry("album/IMG_01.JPG", false, None))
    ensures !IsImageEntry(ZipEntry("album.png/", true, None))
    ensures !IsImageEntry(ZipEntry("notes.txt", false, None))
  {
    var name := "album/IMG_01.JPG";
    assert EndsWithIgnoreCase(name, ".jpg") by {
      assert |name| == 16;
      assert AsciiLower(name[12]) == '.' && AsciiLower(name[13]) == 'j';
      assert AsciiLower(name[14]) == 'p' && AsciiLower(name[15]) == 'g';
    }
    var t := "notes.txt";
    MismatchAt(t, ".jpg", 1);
    MismatchAt(t, ".jpeg", 0);
    MismatchAt(t, ".png", 1);
    MismatchAt(t, ".gif", 1);
    MismatchAt(t, ".bmp", 1);
    MismatchAt(t, ".tiff", 0);
    MismatchAt(t, ".webp", 0);
  }

  /** A drop whose archive cannot be read delivers nothing, even if it also holds valid images. */
  lemma {:induction false} UnreadableArchiveAbortsFlattening(drop: seq<InputFile>, k: nat, unzip: InputFile -> Option<seq<ZipEntry>>)
    requires k < |drop| && Classify(drop[k]) == Archive && unzip(drop[k]).None?
    ensures FilesToProcess(drop, unzip).None?
  {
    if k > 0 {
      UnreadableArchiveAbortsFlattening(drop[1..], k - 1, unzip);
    }
  }
}

=== FILE: remove_bg_page.dfy ===
/**
  The background-removal page: the record a removal produces and the page's
  two state updates. Object URLs are modelled by the blobs they point to.
 */
module RemoveBgPage {

  import opened Common
  import ResultList

  /** One processed image: `processedUrl` points at the cut-out PNG, `originalUrl` at the uploaded file. */
  datatype ProcessedImage = ProcessedImage(
    name: string,
    originalSize: nat,
    processedSize: nat,
    original: Blob,
    processed: Blob)

  /** `handleImagesProcessed`: a delivered batch goes after everything already shown. */
  function HandleImagesProcessed(prev: seq<ProcessedImage>, images: seq<ProcessedImage>): (r: seq<ProcessedImage>)
    ensures |r| == |prev| + |images|
    ensures r[..|prev|] == prev && r[|prev|..] == images
    ensures images == [] ==> r == prev
  {
    ResultList.Append(prev, images)
  }

  /** `handleClearAll` */
  function HandleClearAll(prev: seq<ProcessedImage>): (r: seq<ProcessedImage>)
    ensures r == []
    ensures forall images :: HandleImagesProcessed(r, images) == images
  {
    ResultList.Clear(prev)
  }
}

=== FILE: result_list.dfy ===
/**
  The result list both pages keep in React state: a batch delivered by a drop
  zone is appended (`[...prev, ...images]`), "Clear All" empties it, and the
  results section is rendered only while it is non-empty.
 */
module ResultList {

  /** `[...prev, ...batch]` */
  function Append<T>(prev: seq<T>, batch: seq<T>): (r: seq<T>)
    ensures |r| == |prev| + |batch|
    ensures forall i | 0 <= i < |prev| :: r[i] == prev[i]
    ensures forall i | 0 <= i < |batch| :: r[|prev| + i] == batch[i]
  {
    prev + batch
  }

  /** `setX([])` */
  function Clear<T>(prev: seq<T>): (r: seq<T>)
    ensures |r| == 0
  {
    []
  }

  /** `list.length > 0 && (...)`: whether the results section is rendered. */
  predicate ShowsResults<T>(list: seq<T>)
    ensures ShowsResults(list) <==> list != []
  {
    |list| > 0
  }

  /** Appending an empty batch changes nothing. */
  lemma AppendEmpty<T>(prev: seq<T>)
    ensures Append(prev, []) == prev
  {
  }

  /** Clearing and then appending a batch leaves exactly that batch. */
  lemma ClearThenAppend<T>(prev: seq<T>, batch: seq<T>)
    ensures Append(Clear(prev), batch) == batch
    ensures ShowsResults(Append(Clear(prev), batch)) <==> |batch| > 0
  {
  }

  /** Two deliveries in a row are one delivery of both batches in order. */
  lemma AppendTwice<T>(prev: seq<T>, b1: seq<T>, b2: seq<T>)
    ensures Append(Append(prev, b1), b2) == Append(prev, b1 + b2)
  {
  }

  /** After a non-empty delivery the results section is shown; after clearing it is not. */
  lemma ShowsResultsAfter<T>(prev: seq<T>, batch: seq<T>)
    ensures |batch| > 0 ==> ShowsResults(Append(prev, batch))
    ensures !ShowsResults(Clear(prev))
  {
  }
}

=== FILE: totals.dfy ===
/**
  The size totals both result views show: `images.reduce((sum, img) => sum + size, 0)`,
  recomputed over the whole list on every render.
 */
module Totals {

  /** A left fold from 0, in list order, as `reduce` computes it. */
  function SumSizes<T>(items: seq<T>, size: T -> nat): (r: nat)
    ensures r == 0 <==> forall i | 0 <= i < |items| :: size(items[i]) == 0
  {
    if |items| == 0 then 0
    else SumSizes(items[..|items| - 1], size) + size(items[|items| - 1])
  }

  /** A one-item list totals that item's size. */
  lemma SumSizesSingle<T>(x: T, size: T -> nat)
    ensures SumSizes([x], size) == size(x)
  {
    assert [x][..0] == [];
  }

  /** The total of a concatenation is the sum of the totals: totals grow exactly by a delivered batch. */
  lemma {:induction false} SumSizesConcat<T>(a: seq<T>, b: seq<T>, size: T -> nat)
    ensures SumSizes(a + b, size) == SumSizes(a, size) + SumSizes(b, size)
  {
    if |b| == 0 {
      assert a + b == a;
    } else {
      assert (a + b)[..|a + b| - 1] == a + b[..|b| - 1];
      SumSizesConcat(a, b[..|b| - 1], size);
    }
  }

  /** Lists whose items have the same sizes, position by position, have the same total. */
  lemma {:induction false} SumSizesPointwise<T>(a: seq<T>, b: seq<T>, size: T -> nat)
    requires |a| == |b|
    requires forall i | 0 <= i < |a| :: size(a[i]) == size(b[i])
    ensures SumSizes(a, size) == SumSizes(b, size)
  {
    if |a| > 0 {
      SumSizesPointwise(a[..|a| - 1], b[..|b| - 1], size);
    }
  }

  /** No single item's size exceeds the total. */
  lemma {:induction false} SumSizesBoundsItems<T>(items: seq<T>, size: T -> nat)
    ensures forall i | 0 <= i < |items| :: size(items[i]) <= SumSizes(items, size)
  {
    if |items| > 0 {
      SumSizesBoundsItems(items[..|items| - 1], size);
      assert forall i | 0 <= i < |items| - 1 :: items[..|items| - 1][i] == items[i];
    }
  }
}
